=== FILE: README.md ===
# ripse-server, modelled in Dafny

ripse-server is a reverse-image-search relay. A client opens a WebSocket
and sends `{"query": "search", "data": {"imageURL", "sourceName"}}`. The
server hands the request to the named provider ("1688" or "taobao"). Each
provider owns a single-flight FIFO task queue and drives a browser page for
one search at a time, keeping results for five hours in a shared "cache"
collection.

This project models:

- **The task queue** (`queue.js`) as the class `TaskQueue.Queue`, proved
  against the value model in `QueueSpec`. `QueueSpec` gives the state
  functions for `enqueue`, `dequeue` and the running action settling, an
  invariant every reachable state keeps, and lemmas over whole runs of
  events: start order is submission order, and promises settle in ticket
  order.
- **`Queuable`** (`queueable.js`): the queue-owning base of a provider.
- **`Transaction`** (`transaction.js`): a connection, the engine and a
  mutable data bag.
- **`Source`** (`source.js`):
  - `enqueue`: an answer from the cache, or one queued task;
  - the retrying `load`;
  - `run`;
  - `task`: the second cache lookup, the fetch, the cache write, the reply
    and the position notices to every queued transaction;
  - a task running to its end and its item settling.
- **The 1688 provider's result handling** (`src/source/1688.js`):
  - the price filter, which has no `g` flag, so only the first foreign
    character is removed;
  - the `slice(5, -2)` of the CSS background image;
  - the upload status messages;
  - the in-place currency-conversion loop of `run_`.
- **The WebSocket front end** (`server.js`):
  - the rate-limited upgrade and the `connection` handler;
  - routing in the `message` handler;
  - dispatch to a provider;
  - the 30-second liveness sweep.

Collaborators that cannot be seen are inputs:

- the clock (`now`, `doneAt`, in milliseconds);
- `md5Remote` (a function returning `None` where it throws);
- the currency converter (a function on the Chinese price);
- `nanoid` (the temporary file name);
- the outcome of the page automation (`Ali1688.PageOutcome`);
- the products the Taobao provider reads from the result images (`Sources.Fetch.TaobaoPage`);
- the verdict of the rate limiter;
- what `JSON.parse` gives (`Server.Parse`).

The database's "cache" collection is a sequence of entries in insertion
order. A connection records every frame handed to `send`.

Some behaviours of the code are easy to misread. The model follows the code
as written:

- A message that exceeds the per-address rate limit is only logged. It is
  still processed and the connection is not closed.
- A fetch that yields an empty list counts as success. The requester gets a
  search reply with no products, and everyone queued gets the position
  notice. No cache entry is written.
- A cache hit at task time sends only the "Retrieving products..." status.
  The cached products are not sent.
- The two cache lookups use different bounds. `enqueue` accepts
  `expireDate >= now`; `task` needs `expireDate > now`.
- The position notice goes to every transaction ever queued on the provider,
  the requester included, because the list is never pruned. The position is
  `queue.items.length - 1`, which is -1 when nothing waits.
- A download error makes `uploadImage` (and the Taobao `run_`) throw. The
  `catch` leaves the result null, but the `finally` then unlinks a temporary
  file that `download` has already deleted, and `unlinkSync` throws. `task`
  catches that silently: the requester gets "Retrieving products..." and
  "Downloading image to file...", and no error status, and nobody gets a
  position notice.
- A transaction is created per connection, not per request. Its data bag is
  reused by every search on that connection.

## Model

| member | source | states |
|---|---|---|
| QueueSpec.SettlementOf | src/queue.js:34-37 | the call made when an action settles names that item's own promise; it is `resolve` with the action's value exactly when the action succeeded, otherwise `reject` with its error |
| QueueSpec.Dequeue | src/queue.js:22-32 | false and no change while busy or empty; otherwise the head item moves from waiting to running and the busy flag is set; no item is lost, nothing settles |
| QueueSpec.Enqueue | src/queue.js:15-20 | one more submission and nothing settled; the new item, with the next ticket, is either running or last among the waiting ones; on a busy queue the running item is kept and the new one is appended |
| QueueSpec.Complete | src/queue.js:30-41 | exactly the running item's promise settles; the queue stays busy exactly when an item was waiting, and then the head runs next |
| QueueSpec.Pushed | src/queue.js:15-20 | the actions enqueued by a run of events are among its `enqueue` events |
| QueueSpec.InitialInv | src/queue.js:6-9 | the empty, idle queue satisfies the invariant |
| QueueSpec.EnqueueInv | src/queue.js:15-20 | `enqueue` keeps the invariant, settles nothing, and either starts the new item at once (idle queue) or appends it behind the waiting ones (busy queue) |
| QueueSpec.CompleteInv | src/queue.js:30-41 | settling the running action keeps the invariant, settles exactly that item's promise, and starts the head of the waiting items, or leaves the queue idle |
| QueueSpec.ReplayInv | src/queue.js:15-42 | every state reached by any run of enqueues and settlements satisfies the invariant: at most one action runs, exactly while the busy flag is set |
| QueueSpec.StartsInSubmissionOrder | src/queue.js:15-42 | FIFO: in any run, the i-th action started is the i-th one enqueued, and the i-th promise settled is the i-th one handed out |
| QueueSpec.SettleEachDrains | src/queue.js:30-41 | from a busy queue, one settlement per action in flight or waiting, each a success or a failure, settles every promise exactly once, in order, and leaves the queue idle |
| TaskQueue.Queue.constructor | src/queue.js:6-9 | a new queue is empty and idle and satisfies the invariant |
| TaskQueue.Queue.Enqueue | src/queue.js:15-20 | the class follows the value model's `enqueue`, keeps the invariant and returns the new item's ticket |
| TaskQueue.Queue.Dequeue | src/queue.js:22-32 | no change and false while busy or empty; otherwise the head item is shifted out and started, and the busy flag is set |
| TaskQueue.Queue.Complete | src/queue.js:30-41 | the busy flag is cleared on success and failure alike, only the running item's promise is settled, and the next item starts |
| Queueable.Queuable.constructor | src/queueable.js:8-10 | the provider's own fresh, empty queue |
| Queueable.Queuable.Enqueue | src/queueable.js:17-19 | exactly one action, `task` bound to the arguments, is enqueued, and the queue's promise is returned |
| Transactions.Bag.constructor | src/transaction.js:13 | every field of the data bag starts undefined |
| Transactions.Transaction.constructor | src/transaction.js:10-14 | the transaction is bound to the given engine and connection, with a fresh, empty data bag |
| Transactions.Transaction.Send | src/transaction.js:19-21 | exactly one JSON message is written to the transaction's own connection, whatever its `readyState` |
| Transactions.OccurrencesOutside | src/source.js:134-136 | a connection with no queued transaction gets no notice, and no connection gets more notices than there are queued transactions |
| Transactions.SendToEach | src/source.js:134-136 | sending to every queued transaction gives each connection one copy per transaction bound to it, and nothing else |
| Store.FindOne | src/source.js:31-38 | `findOne` gives null exactly when no entry matches kind, provider, hash and expiry; otherwise it gives the first matching entry in insertion order |
| Store.NewEntry | src/source.js:121-128 | the entry written has kind "source", the provider, the hash, the products and the given date, and expires exactly five hours (18,000,000 ms) after that date |
| Store.WrittenEntryIsFound | src/source.js:121-128 | an entry written at `date` is found by the enqueue-time lookup for the same provider and hash at any time up to `date` + 5 h, whatever else the collection holds |
| Store.BoundsDisagreeOnlyAtExpiry | src/source.js:103-110 | the task-time bound (`$gt`) is stricter than the enqueue-time one (`$gte`), and they differ only for an entry that expires at that very moment |
| Store.Engine.InsertOne | src/source.js:121-128 | `insertOne` appends the entry and changes nothing else |
| Sources.QueuedOrAnswered | src/source.js:39-47 | a transaction that is queued gets no reply from `enqueue`; a hit on an open connection is answered with the cached products |
| Sources.CachedResultServesLaterEnqueues | src/source.js:119-129 | once `task` has written a non-empty result, an `enqueue` for the same provider and hash within five hours is answered from the cache, not queued |
| Sources.CacheWrites | src/source.js:118-129 | `task` writes exactly one entry, which expires five hours after the date, when the fetch gave at least one product, and none otherwise |
| Sources.FetchResult | src/source.js:84-89 | what the provider's `run_` gives: it throws exactly on a download error; otherwise it is null exactly when the page was not listed, and for Taobao it is the products read from the images |
| Sources.FetchStatuses | src/source.js:84-89 | the provider's `run_` always sends "Downloading image to file..." first |
| Sources.DirectFramesShape | src/source.js:111-144 | the requester always hears "Retrieving products..." first. A task-time hit sends nothing more. A null result ends with the error status. A fetch on an open connection ends with the products. When `run` throws, only the fetch's progress statuses follow, and the error status is sent exactly on a null result |
| Sources.FetchSendsProgressOnly | src/source/1688.js:38-84 | every frame a provider's `run_` sends is a status other than the error status |
| Sources.SearchReplyOnlyAfterFetch | src/source.js:130-133 | a search reply reaches the requester during `task` only after a fetch that returned, only on an open connection, and only with the fetched products |
| Sources.FirstSuccess | src/source.js:65-75 | the index of the first successful attempt: all attempts before it failed |
| Sources.Source.constructor | src/source.js:13-20 | a provider starts unloaded, with no queued transactions and its own empty queue |
| Sources.Source.Enqueue | src/source.js:26-51 | the hash is stored when computed; on a hit (`expireDate >= now`) the products are sent only to an open connection and nothing is queued; on a miss the transaction is recorded and exactly one task is queued for it, whose promise is returned; a failed hash changes nothing |
| Sources.Source.Load | src/source.js:53-77 | `load` retries every 10 s until an attempt succeeds, then sets `loaded`; it waits 10 s per failed attempt and never clears `loaded` |
| Sources.Source.Run | src/source.js:84-89 | null, with nothing sent, while not loaded; otherwise the provider's `run_` outcome (a value or a throw) and messages |
| Sources.Source.RunTaobao | src/source/taobao.js:38-73 | the Taobao `run_`: the same download and upload statuses as 1688, the upload status only once the button and file input were found; it throws on a download error, gives the image products when the page listed them, and null otherwise |
| Sources.Source.NotifyPositions | src/source.js:134-136 | every queued transaction, the requester included when queued, is sent the position once per time it was queued |
| Sources.Source.Task | src/source.js:100-145 | the way `task` goes is fixed by the task-time lookup (`expireDate > now`) and `run`'s outcome, including `run` throwing into the `catch`, and for each way the cache writes and every frame sent to the requester and to every other queued connection are stated exactly |
| Sources.Source.FetchAndReply | src/source.js:116-144 | after a task-time miss: `run`'s messages, then nothing more when it throws, the error status on a null result, and otherwise the cache write, the reply and the position notices |
| Sources.Source.Conclude | src/source.js:118-144 | what follows `run`: a throw ends the task with no write and no frame; null sends only the error status; a list goes to `Deliver` |
| Sources.Source.Deliver | src/source.js:118-136 | for a non-null result: the cache write for a non-empty list, the reply for an open connection, then the notices to all queued transactions |
| Sources.Source.WriteCache | src/source.js:119-129 | one cache entry for a non-empty result, none for an empty one |
| Sources.Source.Answer | src/source.js:130-133 | the products are sent only when `readyState` is OPEN |
| Sources.Source.RunNext | src/queue.js:30-41 | the running item's task, which is for a queued transaction, runs to its end; its promise then resolves, the next item starts, and the queue invariant holds |
| Sources.Source.Settle | src/queue.js:33-39 | a task never throws, so the running item's promise resolves and the queue moves on |
| Js.ClampIndex | src/source/1688.js:71 | how `slice` reads an index: an index in range is kept, a negative one counts from the end and stops at 0, one past the end stops at the length |
| Js.Slice | src/source/1688.js:71 | `String.prototype.slice`: the characters between the two clamped indices, so a negative start or end counts from the end, and the result is empty exactly when the clamped indices cross or meet |
| Ali1688.StripPrice | src/source/1688.js:74 | the price text loses at most one character, and is unchanged when it loses none |
| Ali1688.StripPriceRemovesFirstOnly | src/source/1688.js:74 | `replace(/[^0-9.,]/, "")` removes the first character outside `[0-9.,]` and keeps every other character |
| Ali1688.StripPriceBounds | src/source/1688.js:74 | the price text loses at most one character, and loses none exactly when it is made only of digits, `.` and `,` |
| Ali1688.StripPriceKeepsLaterForeignCharacters | src/source/1688.js:74 | a price with two foreign characters keeps the second one |
| Ali1688.Src | src/source/1688.js:71 | the image source is the background-image value with its first 5 and last 2 characters dropped, and is empty when the value is shorter than 7 |
| Ali1688.SrcUnwrapsCssUrl | src/source/1688.js:71 | applied to `url("u")`, the slicing gives back `u` |
| Ali1688.ToProduct | src/source/1688.js:69-76 | a product takes the card's title, link and sliced image; it has a Chinese price exactly when the card has a price; there is no Brazilian price yet |
| Ali1688.Scrape | src/source/1688.js:68-77 | one product per offer card, in page order |
| Ali1688.WithBrazilian | src/source/1688.js:45 | conversion sets only the Brazilian price, from the Chinese one |
| Ali1688.Converted | src/source/1688.js:44-46 | every product converted, with order and length kept |
| Ali1688.UploadStatuses | src/source/1688.js:59-64 | at most two statuses: "Downloading image to file..." always first, then "Uploading image temp/<id>..." exactly when the download succeeded and the file input was found |
| Ali1688.UploadImage | src/source/1688.js:54-84 | "Downloading" is always sent, and "Uploading temp/<id>" once the download succeeded and the file input was found; a download error makes the `finally`'s unlink throw, so the call throws; otherwise the result is null when a later step threw, and a fresh array of the scraped products when the cards were read |
| Ali1688.ConvertAll | src/source/1688.js:44-46 | the loop converts every element of the array in place |
| Ali1688.RunResult | src/source/1688.js:38-47 | `run_` throws exactly when `uploadImage` does, gives null exactly when `uploadImage` did, and otherwise one converted product per card |
| Ali1688.RunStatuses | src/source/1688.js:38-47 | `run_` starts with "Downloading image to file...", ends with "Found N products" when the cards were read, and otherwise sends only the upload statuses |
| Ali1688.Run | src/source/1688.js:38-47 | `run_` sends the upload statuses, then "Found N products" when there is a list, and returns or throws as `RunResult` says, with the converted products |
| WebSocket.Connection.constructor | server.js:97-98 | a socket from a completed upgrade is open and has sent nothing |
| WebSocket.Connection.Send | server.js:116 | `send` appends exactly one frame |
| WebSocket.Connection.Terminate | server.js:112 | `terminate` closes the socket, so it is no longer OPEN |
| Server.UnknownMessageLog | server.js:146 | an unparsable message is logged whole when shorter than 20 characters, and otherwise as its first 20 characters with the original size |
| Server.LogShowsPrefix | server.js:146 | the logged text is a prefix of the message and never longer than 20 characters |
| Server.Classify | server.js:137-151 | "pong" is exactly a heartbeat; a message that is not "pong" and does not parse is exactly the one dropped with the unknown-message log; a message that parses to null, or to a search whose `data` is null or undefined, is exactly the one whose handler throws |
| Server.SearchExactly | server.js:137-151 | a search is dispatched exactly for a message other than "pong" that parses to `query` "search" with a string `imageURL` and a string `sourceName` |
| Server.ProviderNamed | server.js:153-158 | "1688" and "taobao" select a provider; every other name selects none |
| Server.FirstDead | server.js:109-113 | the index of the first client not marked alive: every client before it is alive |
| Server.WithoutDistinct | server.js:171-173 | dropping a closed socket from the tracked clients removes exactly that one and keeps the others distinct |
| Server.Server.constructor | server.js:68-78 | both providers, "1688" and "taobao", are newly created over the one engine with new, separate empty queues, and both are loaded before any client connects |
| Server.Server.Upgrade | server.js:94-104 | a refused upgrade creates no connection; an admitted one adds a new open client, with the peer's address, marked alive and bound to a fresh transaction, which is recorded as that socket's transaction |
| Server.Server.Connect | server.js:120-127 | the `connection` handler stores the address, creates the transaction for the socket and marks it alive |
| Server.Server.OnMessage | server.js:129-169 | runs on the transaction the `connection` handler bound to the socket; "pong" only marks the socket alive; a valid search is dispatched; every other message, including the ones that throw, changes nothing |
| Server.Server.Dispatch | server.js:151-164 | the URL is stored even for an unknown provider, which changes nothing else; for a known provider, the effect is `Submit`'s, and the other provider is untouched |
| Server.Server.Submit | server.js:159-163 | the provider is recorded; the client is told the number of items waiting before its search; then `enqueue` answers from the cache or queues the transaction |
| Server.Server.Sweep | server.js:108-118 | every client before the first dead one is marked dead and pinged; the first dead client is terminated and returned; the clients after it are not touched |
| Server.Server.SweepTwice | server.js:108-118 | two sweeps with no message handled in between: when the first terminates nobody, every client is marked dead, and the second terminates the first client |
| Server.Server.Disconnect | server.js:171-173 | the `close` handler only logs; the socket is closed and the WebSocket server stops tracking it |

## Left out

- Logging (the tracer loggers and every `logger.log` call) has no effect here.
- The per-message rate limiter has nothing to model, because its verdict is only logged. The upgrade limiter is the `admitted` input.
- JSON parsing and serialisation: the outcome of `JSON.parse` is an input, and outbound messages are kept as structured values.
- The currency converter (`src/currency-converter.js`) is not part of this model. Its `convert` is a function input.
- `engine.js` and `lib/util.js` (`md5Remote`, `download`) are not part of this model either.
- The page automation of `load_`, `uploadImage` and the Taobao `run_` is reduced to how far it got and the cards or images it read. `fs.unlinkSync` is modelled only by its effect on the outcome: it throws after a download error, when `download` has already deleted the file. The files themselves are not modelled.
- Sources.Fetch: the Taobao products are an input. The model does not fix their placeholder name and prices ("Test").
- Sources.Source.Task: nothing ties the provider named "1688" to a `Page1688` fetch or "taobao" to a `TaobaoPage` fetch; the fetch is an input to each task.
- JavaScript strings are sequences of UTF-16 code units, while the model's strings are sequences of characters. Ali1688.StripPrice, Ali1688.Src and Server.UnknownMessageLog count characters, so they differ from `replace`, `slice` and `message.length` on text outside the Basic Multilingual Plane. For example, the code cuts "😀" in two where the model keeps it whole.
- Sources.Source.Task: does not model a database call or a `send` that throws part-way through, which the `try`/`catch` turns into a logged, silent end of the task.
- Sources.Source.Enqueue: does not model a `findOne` that throws; only a failed hash is a modelled error path.
- Sources.Source.RunNext: the task runs from start to end with nothing in between. The model does not capture events interleaving at the task's `await`s, such as new enqueues changing `queue.items` before the notices go out.
- Server.Server.Dispatch: `enqueue`'s effects are placed right after the position status. The model does not capture other messages arriving while `enqueue` awaits the hash.
- Server.Server.constructor: a start-up where some provider never loads is not modelled. The code then keeps retrying and never listens, so no server exists to model.
- Server.Server.Dispatch: nothing in the server's invariant records that both providers stay loaded. No server operation clears `loaded`, but the contracts do not state it.
- WebSocket.Connection.Terminate: the socket goes straight to CLOSED. The ws library passes through CLOSING first; every `readyState` test in the code compares with OPEN, so the two are alike here.
- Sources.Source.Load: the page set-up is not modelled. When every given attempt fails, the model stops, while the code keeps retrying.
- The ws library's dropping of frames sent to a closed socket is not modelled: `outbox` records every frame handed to `send`.
- `transaction.data.source` holds the provider object in the code; here it holds the provider's name.
- The express routes (`/currency-rate`, the catch-all reset) and the bootstrap of the database, browser and converter (server.js lines 1-67 and 80-92) are outside this model. So is the `error` handler of the WebSocket server.

=== FILE: ali1688.dfy ===
/**
 * The 1688 provider's result handling: turning the offer cards of the
 * results page into products (the price filter and the slicing of the
 * background-image URL), the upload step and its status messages, and
 * `run_`, which converts every product's price in place. The page
 * automation itself is an input: how far it got, and the cards it read.
 */
module Ali1688 {
  import opened Js
  import opened WebSocket
  import opened Transactions

  /** What the results page shows for one offer card. */
  datatype Card = Card(title: string, backgroundImage: string, href: string, price: Option<string>)

  /**
   * How the steps of `uploadImage` ended:
   * - the download got a status other than 200 (the temporary file exists);
   * - the download's request or file write failed (`download` deletes the file);
   * - a page step between the download and the upload status threw
   *   (finding the file input; for Taobao also finding and clicking the button);
   * - a step after the upload status (upload, navigation, waiting, reading
   *   the cards) threw;
   * - the cards were read.
   */
  datatype PageOutcome = DownloadRefused | DownloadErrored | PageFailed | UploadFailed | Listed(cards: seq<Card>)

  /** Whether the steps got as far as sending the upload status. */
  predicate Uploaded(page: PageOutcome)
  {
    page.UploadFailed? || page.Listed?
  }

  /** The characters the class `[0-9.,]` admits. */
  predicate PriceChar(c: char)
  {
    '0' <= c <= '9' || c == '.' || c == ','
  }

  /** The index of the first character outside `[0-9.,]`, or `|s|` when there is none. */
  function FirstNonPrice(s: string): (k: nat)
    ensures k <= |s|
    ensures forall j :: 0 <= j < k ==> PriceChar(s[j])
    ensures k < |s| ==> !PriceChar(s[k])
  {
    if s == [] || !PriceChar(s[0]) then 0 else 1 + FirstNonPrice(s[1..])
  }

  /**
   * `text.replace(/[^0-9.,]/, "")`: the pattern has no `g` flag, so the scan
   * stops at the first character outside the class and removes only that one.
   */
  function StripPrice(s: string): (r: string)
    ensures |s| - 1 <= |r| <= |s|
    ensures |r| == |s| ==> r == s
  {
    if s == [] then []
    else if !PriceChar(s[0]) then s[1..]
    else [s[0]] + StripPrice(s[1..])
  }

  /** The filter removes the first character outside `[0-9.,]` and nothing else. */
  lemma {:induction false} StripPriceRemovesFirstOnly(s: string)
    ensures FirstNonPrice(s) == |s| ==> StripPrice(s) == s
    ensures FirstNonPrice(s) < |s| ==> StripPrice(s) == s[..FirstNonPrice(s)] + s[FirstNonPrice(s) + 1..]
  {
    if s != [] && PriceChar(s[0]) {
      var t := s[1..];
      StripPriceRemovesFirstOnly(t);
      var k := FirstNonPrice(t);
      if k < |t| {
        ConsSplit(s, k);
      } else {
        assert [s[0]] + t == s;
      }
    }
  }

  /** Removing the character at `k + 1` of `s` is keeping `s[0]` and removing the one at `k` of `s[1..]`. */
  lemma ConsSplit(s: string, k: nat)
    requires k + 2 <= |s|
    ensures s[..k + 1] + s[k + 2..] == [s[0]] + (s[1..][..k] + s[1..][k + 1..])
  {
    assert s[..k + 1] == [s[0]] + s[1..][..k];
    assert s[k + 2..] == s[1..][k + 1..];
  }

  /** At most one character goes, and a string made only of digits, `.` and `,` is left as it is. */
  lemma {:induction false} StripPriceBounds(s: string)
    ensures |s| - 1 <= |StripPrice(s)| <= |s|
    ensures (forall i :: 0 <= i < |s| ==> PriceChar(s[i])) ==> StripPrice(s) == s
    ensures (exists i :: 0 <= i < |s| && !PriceChar(s[i])) ==> |StripPrice(s)| == |s| - 1
  {
    StripPriceRemovesFirstOnly(s);
  }

  /** A price text with two foreign characters keeps the second one. */
  lemma StripPriceKeepsLaterForeignCharacters()
    ensures StripPrice("¥12.50元") == "12.50元"
    ensures !PriceChar(StripPrice("¥12.50元")[5])
  {
  }

  /** `backgroundImage.slice(5, -2)`: the first 5 and the last 2 characters dropped. */
  function Src(backgroundImage: string): (r: string)
    ensures |backgroundImage| >= 7 ==> r == backgroundImage[5..|backgroundImage| - 2]
    ensures |backgroundImage| < 7 ==> r == []
  {
    Slice(backgroundImage, 5, -2)
  }

  /** Applied to a CSS value `url("u")`, the slicing gives back `u`. */
  lemma SrcUnwrapsCssUrl(u: string)
    ensures Src("url(\"" + u + "\")") == u
  {
    var css := "url(\"" + u + "\")";
    assert |css| == |u| + 7;
    assert css[5..|css| - 2] == u;
  }

  /** The product read from one card; its Brazilian price is not set yet. */
  function ToProduct(c: Card): (p: Product)
    ensures p.name == c.title && p.url == c.href && p.src == Src(c.backgroundImage)
    ensures c.price.None? <==> p.currency.chinese.None?
    ensures c.price.Some? ==> p.currency.chinese == Some(StripPrice(c.price.value))
    ensures p.currency.brazilian.None?
  {
    var chinese := if c.price.Some? then Some(StripPrice(c.price.value)) else None;
    Product(c.title, Src(c.backgroundImage), c.href, Currency(chinese, None))
  }

  /** The products `uploadImage` reads from the cards, one per card, in page order. */
  function Scrape(cards: seq<Card>): (ps: seq<Product>)
    ensures |ps| == |cards|
    ensures forall i :: 0 <= i < |cards| ==> ps[i] == ToProduct(cards[i])
  {
    seq(|cards|, i requires 0 <= i < |cards| => ToProduct(cards[i]))
  }

  /** The product with its Brazilian price set from its Chinese one. */
  function WithBrazilian(p: Product, convert: Option<string> -> Option<string>): (q: Product)
    ensures q.name == p.name && q.src == p.src && q.url == p.url
    ensures q.currency.chinese == p.currency.chinese
    ensures q.currency.brazilian == convert(p.currency.chinese)
  {
    p.(currency := p.currency.(brazilian := convert(p.currency.chinese)))
  }

  /** Every product of `ps` with its Brazilian price set, in the same order. */
  function Converted(ps: seq<Product>, convert: Option<string> -> Option<string>): (qs: seq<Product>)
    ensures |qs| == |ps|
    ensures forall i :: 0 <= i < |ps| ==> qs[i] == WithBrazilian(ps[i], convert)
  {
    seq(|ps|, i requires 0 <= i < |ps| => WithBrazilian(ps[i], convert))
  }

  /** The status messages `uploadImage` sends before it returns or throws. */
  function UploadStatuses(page: PageOutcome, fileId: string): (fs: seq<Frame>)
    ensures |fs| >= 1 && fs[0] == Json(StatusMsg(Downloading))
    ensures |fs| <= 2
    ensures |fs| == 2 <==> Uploaded(page)
    ensures |fs| == 2 ==> fs[1] == Json(StatusMsg(Uploading("temp/" + fileId)))
  {
    if Uploaded(page) then [Json(StatusMsg(Downloading)), Json(StatusMsg(Uploading("temp/" + fileId)))]
    else [Json(StatusMsg(Downloading))]
  }

  /**
   * `uploadImage`: a failed step is caught and leaves null, but the
   * `finally` then unlinks the temporary file, which throws when `download`
   * has already deleted it; so a download error makes `uploadImage` throw.
   * Otherwise the result is a fresh array of the products read from the
   * cards. `fileId` stands for the random temporary file name.
   */
  method UploadImage(tx: Transaction, page: PageOutcome, fileId: string) returns (products: Completion<Option<array<Product>>>)
    modifies tx.webSocket`outbox
    ensures tx.webSocket.outbox == old(tx.webSocket.outbox) + UploadStatuses(page, fileId)
    ensures products.Thrown? <==> page.DownloadErrored?
    ensures products.Normal? ==> (products.value.Some? <==> page.Listed?)
    ensures products.Normal? && products.value.Some? ==> fresh(products.value.value) && products.value.value[..] == Scrape(page.cards)
  {
    var fileExists := true;
    var result: Option<array<Product>> := None;
    tx.Send(StatusMsg(Downloading));
    if page.DownloadRefused? {
      // caught: the file was created and stays
    } else if page.DownloadErrored? {
      fileExists := false;
    } else if page.PageFailed? {
      // caught before the upload status: the file exists and is unlinked
    } else {
      tx.Send(StatusMsg(Uploading("temp/" + fileId)));
      if page.Listed? {
        var cards := page.cards;
        var a := new Product[|cards|](i requires 0 <= i < |cards| => ToProduct(cards[i]));
        result := Some(a);
      }
    }
    if !fileExists {
      return Thrown;
    }
    products := Normal(result);
  }

  /** The loop of `run_`: each product's Brazilian price set in place, order and length kept. */
  method ConvertAll(products: array<Product>, convert: Option<string> -> Option<string>)
    modifies products
    ensures products[..] == Converted(old(products[..]), convert)
  {
    for i := 0 to products.Length
      invariant forall j :: 0 <= j < i ==> products[j] == WithBrazilian(old(products[j]), convert)
      invariant forall j :: i <= j < products.Length ==> products[j] == old(products[j])
    {
      products[i] := WithBrazilian(products[i], convert);
    }
  }

  /** What `run_` gives: it throws when `uploadImage` throws, null when it gave null, else the converted products. */
  function RunResult(page: PageOutcome, convert: Option<string> -> Option<string>): (r: Completion<Option<seq<Product>>>)
    ensures r.Thrown? <==> page.DownloadErrored?
    ensures r.Normal? ==> (r.value.None? <==> !page.Listed?)
    ensures r.Normal? && r.value.Some? ==> |r.value.value| == |page.cards|
    ensures r.Normal? && r.value.Some? ==> forall i :: 0 <= i < |page.cards| ==>
      && r.value.value[i].name == page.cards[i].title
      && r.value.value[i].url == page.cards[i].href
      && r.value.value[i].src == Src(page.cards[i].backgroundImage)
      && r.value.value[i].currency.chinese == ToProduct(page.cards[i]).currency.chinese
      && r.value.value[i].currency.brazilian == convert(r.value.value[i].currency.chinese)
  {
    if page.DownloadErrored? then Thrown
    else if page.Listed? then Normal(Some(Converted(Scrape(page.cards), convert)))
    else Normal(None)
  }

  /** What `run_` sends: the upload statuses, then "Found N products" when there is a list. */
  function RunStatuses(page: PageOutcome, fileId: string): (fs: seq<Frame>)
    ensures |fs| >= 1 && fs[0] == Json(StatusMsg(Downloading))
    ensures page.Listed? ==> fs[|fs| - 1] == Json(StatusMsg(Found(|page.cards|)))
    ensures !page.Listed? ==> fs == UploadStatuses(page, fileId)
  {
    UploadStatuses(page, fileId) + (if page.Listed? then [Json(StatusMsg(Found(|page.cards|)))] else [])
  }

  /** `run_(transaction)`. */
  method Run(tx: Transaction, page: PageOutcome, fileId: string, convert: Option<string> -> Option<string>)
    returns (r: Completion<Option<seq<Product>>>)
    modifies tx.webSocket`outbox
    ensures tx.webSocket.outbox == old(tx.webSocket.outbox) + RunStatuses(page, fileId)
    ensures r == RunResult(page, convert)
  {
    var products := UploadImage(tx, page, fileId);
    if products.Thrown? {
      return Thrown;
    }
    if products.value.None? {
      return Normal(None);
    }
    var a := products.value.value;
    tx.Send(StatusMsg(Found(a.Length)));
    ConvertAll(a, convert);
    r := Normal(Some(a[..]));
  }
}

=== FILE: js.dfy ===
/**
 * The few JavaScript value semantics the server relies on: values that may
 * be `null`/`undefined`, and `String.prototype.slice` with its clamping of
 * negative and out-of-range indices.
 */
module Js {

  /** A value that may be `null` or `undefined` (both are `None` here). */
  datatype Option<+T> = None | Some(value: T)

  /** How an awaited call ends: it resolves with a value, or it throws (rejects). */
  datatype Completion<+T> = Normal(value: T) | Thrown

  /** How `slice` turns one of its arguments into an index into a string of length `len`. */
  function ClampIndex(i: int, len: nat): (k: nat)
    ensures k <= len
    ensures 0 <= i <= len ==> k == i
    ensures i < 0 && len + i >= 0 ==> k == len + i
    ensures i > len ==> k == len
    ensures len + i < 0 ==> k == 0
  {
    if i < 0 then (if len + i < 0 then 0 else len + i)
    else if i > len then len
    else i
  }

  /** `s.slice(start, end)`: negative indices count from the end, an empty result when they cross. */
  function Slice(s: string, start: int, end: int): (r: string)
    ensures |r| <= |s|
    ensures 0 <= start <= end <= |s| ==> r == s[start..end]
    ensures 0 <= start && -|s| <= end < 0 && start <= |s| + end ==> r == s[start..|s| + end]
    ensures 0 <= start && -|s| <= end < 0 && start > |s| + end ==> r == []
    ensures -|s| <= start < 0 && 0 <= |s| + start <= end <= |s| ==> r == s[|s| + start..end]
    ensures ClampIndex(start, |s|) < ClampIndex(end, |s|) ==> r == s[ClampIndex(start, |s|)..ClampIndex(end, |s|)]
    ensures ClampIndex(start, |s|) >= ClampIndex(end, |s|) ==> r == []
  {
    var from, to := ClampIndex(start, |s|), ClampIndex(end, |s|);
    if from < to then s[from..to] else []
  }
}

=== FILE: queue.dfy ===
/**
 * The `Queue` class: a FIFO executor over an `items` array with a
 * `pendingPromise` busy flag. Its `enqueue` and `dequeue` methods, and the
 * event of the running action settling, are proved against the value model
 * in module QueueSpec; `Valid()` is that module's invariant.
 */
module TaskQueue {
  import opened Js
  import opened QueueSpec

  class Queue<A, V> {
    /** The waiting items; the running one has already been shifted out. */
    var items: seq<Item<A>>
    /** The busy flag. */
    var pending: bool
    /** The item whose action the in-flight `dequeue` call is awaiting. */
    var running: Option<Item<A>>
    /** The resolve/reject calls made on the items' promises, in order. */
    var settled: seq<Settlement<V>>
    /** The number of `enqueue` calls, which names the next promise. */
    var submitted: nat
    /** History: the items in the order their actions started. */
    ghost var started: seq<Item<A>>
    /** History: the actions passed to `enqueue`, in order. */
    ghost var pushed: seq<A>

    ghost function State(): QueueState<A, V>
      reads this
    {
      QueueState(items, pending, running, settled, submitted, started)
    }

    ghost predicate Valid()
      reads this
    {
      Inv(State(), pushed)
    }

    constructor ()
      ensures Valid() && State() == Initial() && pushed == []
    {
      items, pending, running, settled, submitted := [], false, None, [], 0;
      started, pushed := [], [];
    }

    /**
     * Push one item at the tail of `items`, then try to start one. Returns
     * the new item's ticket, which stands for the promise returned.
     */
    method Enqueue(action: A) returns (ticket: nat)
      requires Valid()
      modifies this
      ensures Valid()
      ensures State() == QueueSpec.Enqueue(old(State()), action)
      ensures pushed == old(pushed) + [action]
      ensures ticket == old(submitted)
      ensures old(pending) ==> items == old(items) + [Item(ticket, action)] && running == old(running)
      ensures !old(pending) ==> running == Some(Item(ticket, action)) && items == []
    {
      EnqueueInv(State(), pushed, action);
      ticket := submitted;
      items := items + [Item(ticket, action)];
      submitted := submitted + 1;
      pushed := pushed + [action];
      var _ := Dequeue();
    }

    /**
     * `dequeue()`: false and no change while busy or when nothing waits;
     * otherwise the head item is shifted out and its action started (the
     * source's promise resolves to true once that action has settled).
     */
    method Dequeue() returns (took: bool)
      modifies this
      ensures (State(), took) == QueueSpec.Dequeue(old(State()))
      ensures pushed == old(pushed)
      ensures old(pending) ==> !took && State() == old(State())
      ensures old(items) == [] ==> !took && State() == old(State())
      ensures took ==> pending && running == Some(old(items)[0]) && items == old(items)[1..]
    {
      if pending {
        return false;
      }
      if items == [] {
        return false;
      }
      var head := items[0];
      items := items[1..];
      pending := true;
      running := Some(head);
      started := started + [head];
      took := true;
    }

    /**
     * The running action settles with `outcome`: the busy flag is cleared
     * (on success and on failure alike), only that item's promise is
     * resolved or rejected, and `dequeue` starts the next waiting item.
     */
    method Complete(outcome: Outcome<V>)
      requires Valid() && pending
      modifies this
      ensures Valid()
      ensures State() == QueueSpec.Complete(old(State()), outcome)
      ensures pushed == old(pushed)
      ensures settled == old(settled) + [SettlementOf(old(running).value.ticket, outcome)]
      ensures old(items) != [] ==> running == Some(old(items)[0]) && items == old(items)[1..]
      ensures old(items) == [] ==> !pending && items == []
    {
      CompleteInv(State(), pushed, outcome);
      var done := running.value;
      pending := false;
      running := None;
      settled := settled + [SettlementOf(done.ticket, outcome)];
      var _ := Dequeue();
    }
  }
}

=== FILE: queue_spec.dfy ===
/**
 * The single-flight FIFO executor as a value: what `enqueue`, `dequeue`
 * and the settling of the running action do to the queue's state, the
 * invariant that every reachable state keeps, and what follows for whole
 * runs of events. The `Queue` class in module TaskQueue is proved against
 * these functions.
 */
module QueueSpec {
  import opened Js

  /** A queued unit of work; `ticket` names the promise `enqueue` returned for it. */
  datatype Item<A> = Item(ticket: nat, action: A)

  /** How a running action settled: its payload, or the exception it threw. */
  datatype Outcome<V> = Fulfilled(payload: V) | Threw(reason: string)

  /** The call made on an item's promise when its action settled. */
  datatype Settlement<V> = Resolved(ticket: nat, payload: V) | Rejected(ticket: nat, reason: string)

  /**
   * `items` are the waiting items, `pending` is the busy flag, `running` the
   * item whose action is in flight, `settled` the resolve/reject calls made
   * so far, `submitted` the number of `enqueue` calls; `started` (history
   * only) lists the items in the order their actions were started.
   */
  datatype QueueState<A, V> = QueueState(
    items: seq<Item<A>>,
    pending: bool,
    running: Option<Item<A>>,
    settled: seq<Settlement<V>>,
    submitted: nat,
    started: seq<Item<A>>)

  function Initial<A, V>(): QueueState<A, V>
  {
    QueueState([], false, None, [], 0, [])
  }

  /**
   * `dequeue()`: a no-op answering false while an action is pending or no
   * item waits; otherwise the head item is shifted out, the busy flag is set
   * and its action starts.
   */
  function Dequeue<A, V>(s: QueueState<A, V>): (r: (QueueState<A, V>, bool))
    ensures r.1 <==> !s.pending && s.items != []
    ensures !r.1 ==> r.0 == s
    ensures r.1 ==> r.0.pending && r.0.running == Some(s.items[0]) && r.0.items == s.items[1..]
    ensures r.0.started + r.0.items == s.started + s.items
    ensures r.0.settled == s.settled && r.0.submitted == s.submitted
  {
    if s.pending || s.items == [] then (s, false)
    else
      var head := s.items[0];
      (s.(items := s.items[1..], pending := true, running := Some(head), started := s.started + [head]), true)
  }

  /** `enqueue(action)`: push one item at the tail, then try to start one. */
  function Enqueue<A, V>(s: QueueState<A, V>, action: A): (r: QueueState<A, V>)
    ensures r.submitted == s.submitted + 1 && r.settled == s.settled
    ensures r.started + r.items == s.started + s.items + [Item(s.submitted, action)]
    ensures r.running == Some(Item(s.submitted, action)) || (r.items != [] && r.items[|r.items| - 1] == Item(s.submitted, action))
    ensures s.pending ==> r.running == s.running && r.items == s.items + [Item(s.submitted, action)]
  {
    var pushed := s.(items := s.items + [Item(s.submitted, action)], submitted := s.submitted + 1);
    Dequeue(pushed).0
  }

  /** The call made on the promise with `ticket` when its action settles with `o`. */
  function SettlementOf<V>(ticket: nat, o: Outcome<V>): (r: Settlement<V>)
    ensures r.ticket == ticket
    ensures r.Resolved? <==> o.Fulfilled?
    ensures r.Resolved? ==> r.payload == o.payload
    ensures r.Rejected? ==> r.reason == o.reason
  {
    match o
    case Fulfilled(v) => Resolved(ticket, v)
    case Threw(e) => Rejected(ticket, e)
  }

  /**
   * The running action settles: the busy flag is cleared, its own promise
   * (and only that one) is resolved or rejected, and `dequeue` runs again.
   */
  function Complete<A, V>(s: QueueState<A, V>, o: Outcome<V>): (r: QueueState<A, V>)
    requires s.running.Some?
    ensures r.settled == s.settled + [SettlementOf(s.running.value.ticket, o)]
    ensures r.submitted == s.submitted && r.started + r.items == s.started + s.items
    ensures r.pending <==> s.items != []
    ensures s.items != [] ==> r.running == Some(s.items[0]) && r.items == s.items[1..]
    ensures s.items == [] ==> r.running.None? && r.items == []
  {
    var settledOne := s.(pending := false, running := None,
                         settled := s.settled + [SettlementOf(s.running.value.ticket, o)]);
    Dequeue(settledOne).0
  }

  /**
   * The invariant of every reachable state, given the actions `pushed` so far:
   * at most one action runs, and it runs exactly while the busy flag is set;
   * an idle queue has nothing waiting; items start in submission order, the
   * running one is the last started and is no longer among the waiting
   * items; every started item other than the running one has settled, in
   * start order.
   */
  ghost predicate Inv<A, V>(s: QueueState<A, V>, pushed: seq<A>)
  {
    && (s.pending <==> s.running.Some?)
    && (!s.pending ==> s.items == [])
    && s.submitted == |pushed| == |s.started| + |s.items|
    && (forall i :: 0 <= i < |s.started| ==> s.started[i] == Item(i, pushed[i]))
    && (forall j :: 0 <= j < |s.items| ==> s.items[j] == Item(|s.started| + j, pushed[|s.started| + j]))
    && (s.running.Some? ==> |s.started| > 0 && s.running.value == s.started[|s.started| - 1])
    && |s.settled| == |s.started| - (if s.pending then 1 else 0)
    && (forall k :: 0 <= k < |s.settled| ==> s.settled[k].ticket == k)
  }

  lemma InitialInv<A, V>()
    ensures Inv(Initial<A, V>(), [])
  {
  }

  /** `enqueue` keeps the invariant, adds exactly one item and never drops work. */
  lemma EnqueueInv<A, V>(s: QueueState<A, V>, pushed: seq<A>, a: A)
    requires Inv(s, pushed)
    ensures Inv(Enqueue(s, a), pushed + [a])
    ensures Enqueue(s, a).settled == s.settled
    ensures s.pending ==> Enqueue(s, a).items == s.items + [Item(|pushed|, a)] && Enqueue(s, a).running == s.running
    ensures !s.pending ==> Enqueue(s, a).running == Some(Item(|pushed|, a)) && Enqueue(s, a).items == []
  {
    var p := s.(items := s.items + [Item(s.submitted, a)], submitted := s.submitted + 1);
    var t := Enqueue(s, a);
    var pushed' := pushed + [a];
    if s.pending {
      assert t == p;
      forall j | 0 <= j < |t.items|
        ensures t.items[j] == Item(|t.started| + j, pushed'[|t.started| + j])
      {
        if j < |s.items| {
          assert t.items[j] == s.items[j];
        }
      }
    } else {
      assert s.items == [];
      assert t.started == s.started + [Item(|pushed|, a)];
      forall i | 0 <= i < |t.started|
        ensures t.started[i] == Item(i, pushed'[i])
      {
        if i < |s.started| {
          assert t.started[i] == s.started[i];
        }
      }
    }
  }

  /**
   * Settling the running action keeps the invariant: it settles that item's
   * own promise, and the next waiting item (if any) starts at once.
   */
  lemma CompleteInv<A, V>(s: QueueState<A, V>, pushed: seq<A>, o: Outcome<V>)
    requires Inv(s, pushed) && s.running.Some?
    ensures Inv(Complete(s, o), pushed)
    ensures Complete(s, o).settled == s.settled + [SettlementOf(s.running.value.ticket, o)]
    ensures s.items != [] ==> Complete(s, o).running == Some(s.items[0]) && Complete(s, o).items == s.items[1..]
    ensures s.items == [] ==> !Complete(s, o).pending
  {
    var t := Complete(s, o);
    if s.items != [] {
      assert t.started == s.started + [s.items[0]];
      forall i | 0 <= i < |t.started|
        ensures t.started[i] == Item(i, pushed[i])
      {
        if i < |s.started| {
          assert t.started[i] == s.started[i];
        }
      }
      forall j | 0 <= j < |t.items|
        ensures t.items[j] == Item(|t.started| + j, pushed[|t.started| + j])
      {
        assert t.items[j] == s.items[j + 1];
      }
    }
  }

  /** An event the queue reacts to: an `enqueue` call, or the running action settling. */
  datatype Event<A, V> = Push(action: A) | Settle(outcome: Outcome<V>)

  /** The actions enqueued by a run of events, in order. */
  function Pushed<A, V>(evs: seq<Event<A, V>>): (r: seq<A>)
    ensures |r| <= |evs|
    ensures forall i :: 0 <= i < |r| ==> Push(r[i]) in evs
  {
    if evs == [] then []
    else
      var front := Pushed(evs[..|evs| - 1]);
      match evs[|evs| - 1]
      case Push(a) => front + [a]
      case Settle(_) => front
  }

  /** The state after a run of events from an empty queue; None if an action settled while none was running. */
  function Replay<A, V>(evs: seq<Event<A, V>>): Option<QueueState<A, V>>
  {
    if evs == [] then Some(Initial())
    else
      match Replay(evs[..|evs| - 1])
      case None => None
      case Some(s) =>
        match evs[|evs| - 1]
        case Push(a) => Some(Enqueue(s, a))
        case Settle(o) => if s.running.Some? then Some(Complete(s, o)) else None
  }

  /** Every state reached by a possible run of events satisfies the invariant. */
  lemma {:induction false} ReplayInv<A, V>(evs: seq<Event<A, V>>)
    ensures Replay(evs).Some? ==> Inv(Replay(evs).value, Pushed(evs))
  {
    if evs == [] {
      InitialInv<A, V>();
    } else {
      var front := evs[..|evs| - 1];
      ReplayInv(front);
      if Replay(evs).Some? {
        var s := Replay(front).value;
        match evs[|evs| - 1]
        case Push(a) => EnqueueInv(s, Pushed(front), a);
        case Settle(o) => CompleteInv(s, Pushed(front), o);
      }
    }
  }

  /**
   * FIFO: in any possible run, the i-th action to start is the i-th action
   * enqueued, and the i-th promise to settle is the one `enqueue` returned
   * for the i-th call.
   */
  lemma StartsInSubmissionOrder<A, V>(evs: seq<Event<A, V>>, i: nat)
    requires Replay(evs).Some?
    ensures i < |Replay(evs).value.started| ==> i < |Pushed(evs)| && Replay(evs).value.started[i].action == Pushed(evs)[i]
    ensures i < |Replay(evs).value.settled| ==> Replay(evs).value.settled[i].ticket == i
  {
    ReplayInv(evs);
  }

  /** Settle the running action with each outcome in turn, stopping when the queue is idle. */
  function SettleEach<A, V>(s: QueueState<A, V>, os: seq<Outcome<V>>): QueueState<A, V>
    decreases |os|
  {
    if os == [] || s.running.None? then s else SettleEach(Complete(s, os[0]), os[1..])
  }

  /**
   * Draining: from a busy queue, as many settlements as there are actions in
   * flight or waiting, whatever mix of successes and failures, settle every
   * enqueued promise exactly once, in ticket order, and leave the queue idle.
   */
  lemma {:induction false} SettleEachDrains<A, V>(s: QueueState<A, V>, pushed: seq<A>, os: seq<Outcome<V>>)
    requires Inv(s, pushed) && s.pending
    requires |os| == |s.items| + 1
    decreases |os|
    ensures Inv(SettleEach(s, os), pushed)
    ensures !SettleEach(s, os).pending && SettleEach(s, os).items == []
    ensures |SettleEach(s, os).settled| == |pushed|
    ensures forall k :: 0 <= k < |pushed| ==> SettleEach(s, os).settled[k].ticket == k
  {
    var t := Complete(s, os[0]);
    CompleteInv(s, pushed, os[0]);
    if s.items != [] {
      SettleEachDrains(t, pushed, os[1..]);
    } else {
      assert os[1..] == [];
    }
  }
}

=== FILE: queueable.dfy ===
/**
 * `Queuable`: the part of a provider that owns a task queue. `enqueue(...args)`
 * puts `this.task` bound to those arguments on the queue and hands back the
 * queue's promise, so the promise settles with what `task` produced.
 */
module Queueable {
  import opened QueueSpec
  import opened TaskQueue

  /** `this.task.bind(this, ...args)`: the action a provider queues. */
  datatype Call<Args> = Task(args: Args)

  class Queuable<Args, V> {
    /** Created once by the constructor and never replaced. */
    const queue: Queue<Call<Args>, V>

    constructor ()
      ensures fresh(queue) && queue.Valid() && queue.State() == Initial() && queue.pushed == []
    {
      queue := new Queue();
    }

    /**
     * Adds exactly one action, `task` applied to `args`, to the owned
     * queue and returns that item's ticket (the queue's promise).
     */
    method Enqueue(args: Args) returns (promise: nat)
      requires queue.Valid()
      modifies queue
      ensures queue.Valid()
      ensures queue.State() == QueueSpec.Enqueue(old(queue.State()), Task(args))
      ensures queue.pushed == old(queue.pushed) + [Task(args)]
      ensures promise == old(queue.submitted)
    {
      promise := queue.Enqueue(Task(args));
    }
  }
}

=== FILE: server.dfy ===
/**
 * The WebSocket front end: admitting an upgrade, the `connection` handler
 * that binds a new socket to a fresh transaction, the `message` handler
 * that routes "pong", unparsable text and search queries, and the 30-second
 * liveness sweep over the tracked clients. JSON parsing, the rate limiter
 * and the clock are inputs.
 */
module Server {
  import opened Js
  import opened WebSocket
  import opened Store
  import opened QueueSpec
  import opened Transactions
  import opened Sources

  /** How many characters of an unparsable message the log shows. */
  const LOG_PREFIX: nat := 20

  /** A JSON property as the handler tests it: a string, or anything else (undefined included). */
  datatype Value = Str(s: string) | NotString

  /** The `data` property of a parsed message: undefined or null, or an object with the two fields read. */
  datatype Data = Nullish | Fields(imageURL: Value, sourceName: Value)

  /**
   * What `JSON.parse(message)` gives: it throws, it gives `null` (whose
   * destructuring throws), or a value whose `query` and `data` are read.
   */
  datatype Parse = Invalid | NullValue | Parsed(query: Value, data: Data)

  /** The log line for an unparsable message: the whole text, or its first 20 characters and the original size. */
  datatype LogLine = Whole(text: string) | Truncated(prefix: string, originalSize: nat)

  /** What the `message` handler does with one message. */
  datatype Route =
    | Heartbeat                                  // "pong": the socket is alive
    | Dropped(log: LogLine)                      // not JSON: logged and ignored
    | Fault                                      // an exception, caught and logged
    | Ignored                                    // some other query, or a search with a non-string field
    | Search(imageURL: string, sourceName: string)

  /** The providers the handler knows, by the name a client gives. */
  datatype Provider = Ali | Taobao

  /** The text logged for an unparsable message. */
  function UnknownMessageLog(raw: string): (l: LogLine)
    ensures l.Truncated? <==> |raw| >= LOG_PREFIX
    ensures l.Truncated? ==> l.prefix == raw[..LOG_PREFIX] && l.originalSize == |raw|
    ensures l.Whole? ==> l.text == raw
  {
    if |raw| >= LOG_PREFIX then Truncated(Slice(raw, 0, LOG_PREFIX), |raw|) else Whole(raw)
  }

  /** The routing of the `message` handler, given the raw text and what parsing it gives. */
  function Classify(raw: string, parse: Parse): (r: Route)
    ensures r.Heartbeat? <==> raw == "pong"
    ensures r.Dropped? <==> raw != "pong" && parse.Invalid?
    ensures r.Dropped? ==> r.log == UnknownMessageLog(raw)
    ensures r.Fault? <==>
      raw != "pong" && (parse.NullValue? || (parse.Parsed? && parse.query == Str("search") && parse.data.Nullish?))
  {
    if raw == "pong" then Heartbeat
    else match parse
      case Invalid => Dropped(UnknownMessageLog(raw))
      case NullValue => Fault
      case Parsed(query, data) =>
        if query != Str("search") then Ignored
        else if data.Nullish? then Fault
        else if data.imageURL.Str? && data.sourceName.Str? then Search(data.imageURL.s, data.sourceName.s)
        else Ignored
  }

  /**
   * A search is dispatched exactly for a message other than "pong" that
   * parses to an object whose `query` is "search" and whose `data` has a
   * string `imageURL` and a string `sourceName`, and it carries those two.
   */
  lemma SearchExactly(raw: string, parse: Parse, url: string, name: string)
    ensures Classify(raw, parse) == Search(url, name) <==>
      && raw != "pong"
      && parse == Parsed(Str("search"), Fields(Str(url), Str(name)))
  {
  }

  /** The shown part of a logged message is a prefix of it and never longer than 20 characters. */
  lemma LogShowsPrefix(raw: string)
    ensures var l := UnknownMessageLog(raw);
      && (l.Whole? ==> |l.text| < LOG_PREFIX && l.text <= raw)
      && (l.Truncated? ==> |l.prefix| == LOG_PREFIX && l.prefix <= raw && l.originalSize == |raw|)
  {
  }

  /** `"1688"` and `"taobao"` name a provider; any other name none. */
  function ProviderNamed(name: string): (p: Option<Provider>)
    ensures p == Some(Ali) <==> name == "1688"
    ensures p == Some(Taobao) <==> name == "taobao"
  {
    if name == "1688" then Some(Ali)
    else if name == "taobao" then Some(Taobao)
    else None
  }

  /** The index of the first client whose flag is false, or the number of clients when all are alive. */
  function FirstDead(alive: seq<bool>): (k: nat)
    ensures k <= |alive|
    ensures forall j :: 0 <= j < k ==> alive[j]
    ensures k < |alive| ==> !alive[k]
  {
    if alive == [] || !alive[0] then 0 else 1 + FirstDead(alive[1..])
  }

  /** The `isAlive` flags of the clients, in order. */
  function Flags(cs: seq<Connection>): (fs: seq<bool>)
    reads set c | c in cs
    ensures |fs| == |cs|
    ensures forall i :: 0 <= i < |cs| ==> fs[i] == cs[i].isAlive
  {
    seq(|cs|, i requires 0 <= i < |cs| reads set c | c in cs => cs[i].isAlive)
  }

  /** No connection appears twice. */
  predicate Distinct(cs: seq<Connection>)
  {
    forall i, j :: 0 <= i < j < |cs| ==> cs[i] != cs[j]
  }

  /** The clients with `c` removed, the others kept in order. */
  function Without(cs: seq<Connection>, c: Connection): (r: seq<Connection>)
    ensures |r| <= |cs|
    ensures forall x :: x in r ==> x in cs && x != c
    ensures forall x :: x in cs && x != c ==> x in r
  {
    if cs == [] then []
    else if cs[0] == c then Without(cs[1..], c)
    else [cs[0]] + Without(cs[1..], c)
  }

  /** Removing a client keeps the others distinct, and removes exactly one entry when it was tracked. */
  lemma {:induction false} WithoutDistinct(cs: seq<Connection>, c: Connection)
    requires Distinct(cs)
    ensures Distinct(Without(cs, c))
    ensures c in cs ==> |Without(cs, c)| == |cs| - 1
    ensures c !in cs ==> Without(cs, c) == cs
  {
    if cs != [] {
      var t := cs[1..];
      assert Distinct(t) by {
        forall i, j | 0 <= i < j < |t| ensures t[i] != t[j] {
          assert t[i] == cs[i + 1] && t[j] == cs[j + 1];
        }
      }
      WithoutDistinct(t, c);
      if cs[0] != c {
        assert cs[0] !in t by {
          forall i | 0 <= i < |t| ensures t[i] != cs[0] {
            assert t[i] == cs[i + 1];
          }
        }
        assert cs[0] !in Without(t, c);
        var r := [cs[0]] + Without(t, c);
        forall i, j | 0 <= i < j < |r| ensures r[i] != r[j] {
          if i == 0 {
            assert r[j] in Without(t, c);
          } else {
            assert r[i] == Without(t, c)[i - 1] && r[j] == Without(t, c)[j - 1];
          }
        }
        if c !in cs {
          assert [cs[0]] + t == cs;
        }
      } else {
        assert c !in t by {
          forall i | 0 <= i < |t| ensures t[i] != c {
            assert t[i] == cs[i + 1];
          }
        }
      }
    }
  }

  class Server {
    /** The engine both providers share. */
    const engine: Engine
    /** The provider named "1688". */
    const ali: Source
    /** The provider named "taobao". */
    const taobao: Source
    /** The sockets the WebSocket server tracks, in the order they connected. */
    var clients: seq<Connection>
    /** The transaction the `connection` handler created for each socket, which its `message` handler uses. */
    ghost var txOf: map<Connection, Transaction>

    /**
     * Both providers are set up over the one engine with queues of their
     * own, no client is tracked twice, and every tracked socket has the one
     * transaction bound to it.
     */
    ghost predicate Valid()
      reads this, ali, ali.queuable, ali.queuable.queue, taobao, taobao.queuable, taobao.queuable.queue
    {
      && ali.name == "1688" && taobao.name == "taobao"
      && ali.engine == engine && taobao.engine == engine
      && ali.queuable.queue != taobao.queuable.queue
      && ali.Valid() && taobao.Valid()
      && Distinct(clients)
      && (forall c :: c in clients ==> c in txOf)
      && (forall c :: c in txOf ==> txOf[c].webSocket == c)
    }

    /** The provider a name selects. */
    function SourceFor(p: Provider): (s: Source)
      reads this
      ensures s == (if p == Ali then ali else taobao)
    {
      if p == Ali then ali else taobao
    }

    /**
     * Start-up: both providers are created over `engine` and loaded, 1688
     * first, before the server listens, so every client meets loaded
     * providers with empty queues. `aliAttempts` and `taobaoAttempts` give
     * the outcome of each load attempt in turn; `load` retries until one
     * succeeds, so a server that listens had a successful attempt for each.
     */
    constructor (engine: Engine, aliAttempts: seq<bool>, taobaoAttempts: seq<bool>)
      requires true in aliAttempts && true in taobaoAttempts
      ensures Valid()
      ensures this.engine == engine && clients == []
      ensures ali.loaded && taobao.loaded
      ensures fresh(ali) && fresh(taobao) && fresh(ali.queuable) && fresh(taobao.queuable)
      ensures fresh(ali.queuable.queue) && fresh(taobao.queuable.queue)
      ensures ali.queuedTransactions == [] && taobao.queuedTransactions == []
      ensures ali.queuable.queue.State() == Initial() && taobao.queuable.queue.State() == Initial()
    {
      this.engine := engine;
      var a := new Source("1688", engine);
      var _, _ := a.Load(aliAttempts);
      var t := new Source("taobao", engine);
      var _, _ := t.Load(taobaoAttempts);
      ali, taobao := a, t;
      clients := [];
      txOf := map[];
    }

    /**
     * The `upgrade` event: a request the rate limiter refuses gets its socket
     * destroyed and no connection; an admitted one becomes a new tracked
     * client, handed to the `connection` handler.
     */
    method Upgrade(address: string, admitted: bool) returns (tx: Option<Transaction>)
      requires Valid()
      modifies this`clients, this`txOf
      ensures Valid()
      ensures !admitted ==> tx.None? && clients == old(clients) && txOf == old(txOf)
      ensures admitted ==> tx.Some? && fresh(tx.value) && fresh(tx.value.webSocket) && clients == old(clients) + [tx.value.webSocket]
      ensures admitted ==> txOf == old(txOf)[tx.value.webSocket := tx.value]
      ensures admitted ==> var ws := tx.value.webSocket;
        && ws.remoteAddress == address && ws.isAlive && ws.readyState == OPEN && ws.outbox == []
        && tx.value.engine == engine && fresh(tx.value.data)
        && tx.value.data.imageURL.None? && tx.value.data.imageMD5.None? && tx.value.data.source.None?
    {
      if !admitted {
        return None;
      }
      var ws := new Connection();
      clients := clients + [ws];
      var t := Connect(ws, address);
      txOf := txOf[ws := t];
      tx := Some(t);
    }

    /**
     * The `connection` handler: the socket records the peer's address, is
     * bound to a new transaction over the engine, and is marked alive.
     */
    method Connect(ws: Connection, address: string) returns (tx: Transaction)
      modifies ws`remoteAddress, ws`isAlive
      ensures ws.remoteAddress == address && ws.isAlive
      ensures fresh(tx) && tx.engine == engine && tx.webSocket == ws
      ensures fresh(tx.data) && tx.data.imageURL.None? && tx.data.imageMD5.None? && tx.data.source.None?
    {
      ws.remoteAddress := address;
      tx := new Transaction(engine, ws);
      ws.isAlive := true;
    }

    /**
     * The `message` handler on a socket, which works on the transaction
     * `tx` its `connection` handler created. "pong" marks the socket
     * alive; a search for a known or unknown provider goes to `Dispatch`;
     * every other message (unparsable, null, another query, a search with
     * missing data or non-string fields) changes nothing. `md5Remote` and
     * `now` are what the provider's `enqueue` sees.
     */
    method OnMessage(tx: Transaction, raw: string, parse: Parse, md5Remote: string -> Option<string>, now: int)
      returns (route: Route)
      requires Valid() && tx.webSocket in txOf && txOf[tx.webSocket] == tx
      modifies tx.webSocket`isAlive, tx.webSocket`outbox, tx.data`imageURL, tx.data`imageMD5, tx.data`source
      modifies ali`queuedTransactions, ali.queuable.queue, taobao`queuedTransactions, taobao.queuable.queue
      ensures Valid()
      ensures route == Classify(raw, parse)
      ensures route.Heartbeat? ==> tx.webSocket.isAlive && Quiet(tx)
      ensures !route.Heartbeat? ==> tx.webSocket.isAlive == old(tx.webSocket.isAlive)
      ensures !route.Heartbeat? && !route.Search? ==> Quiet(tx)
      ensures route.Search? ==> Dispatched(tx, route.imageURL, route.sourceName, md5Remote, now)
    {
      route := Classify(raw, parse);
      if route.Heartbeat? {
        tx.webSocket.isAlive := true;
      } else if route.Search? {
        Dispatch(tx, route.imageURL, route.sourceName, md5Remote, now);
      }
    }

    /** Nothing the message handler may change has changed, except perhaps the socket's liveness. */
    twostate predicate Quiet(tx: Transaction)
      reads tx.webSocket, tx.data, ali, ali.queuable.queue, taobao, taobao.queuable.queue
    {
      && tx.webSocket.outbox == old(tx.webSocket.outbox)
      && unchanged(tx.data)
      && ali.queuedTransactions == old(ali.queuedTransactions) && ali.queuable.queue.State() == old(ali.queuable.queue.State())
      && taobao.queuedTransactions == old(taobao.queuedTransactions) && taobao.queuable.queue.State() == old(taobao.queuable.queue.State())
    }

    /**
     * The effect of a search for `url` on the provider named `name`: the URL
     * is stored even for an unknown provider; for a known one, the provider
     * is recorded, the client is told its position (the number of items
     * waiting before the search) and the provider's `enqueue` follows, with
     * the hash of `url`; the other provider is untouched.
     */
    twostate predicate Dispatched(tx: Transaction, url: string, name: string, md5Remote: string -> Option<string>, now: int)
      reads this, tx.webSocket, tx.data, ali, ali.queuable.queue, taobao, taobao.queuable.queue, engine
    {
      && tx.data.imageURL == Some(url)
      && (ProviderNamed(name).None? ==>
            && tx.webSocket.outbox == old(tx.webSocket.outbox)
            && tx.data.imageMD5 == old(tx.data.imageMD5) && tx.data.source == old(tx.data.source)
            && ali.queuedTransactions == old(ali.queuedTransactions) && ali.queuable.queue.State() == old(ali.queuable.queue.State())
            && taobao.queuedTransactions == old(taobao.queuedTransactions) && taobao.queuable.queue.State() == old(taobao.queuable.queue.State()))
      && (ProviderNamed(name).Some? ==>
            var p := ProviderNamed(name).value;
            Submitted(tx, SourceFor(p), SourceFor(if p == Ali then Taobao else Ali), md5Remote(url), now))
    }

    /**
     * The effect of a search handed to provider `s` with the image hash `h`:
     * the provider is recorded, the client is told its position (the number
     * of items waiting before the search), then `enqueue` answers from the
     * cache or queues the transaction; the other provider `o` is untouched.
     */
    twostate predicate Submitted(tx: Transaction, s: Source, o: Source, new h: Option<string>, now: int)
      reads tx.webSocket, tx.data, s, s.queuable.queue, o, o.queuable.queue, engine
    {
      && tx.data.source == Some(s.name)
      && tx.data.imageMD5 == (if h.Some? then h else old(tx.data.imageMD5))
      && tx.webSocket.outbox == old(tx.webSocket.outbox)
           + [Json(StatusMsg(Position(|old(s.queuable.queue.items)|)))]
           + CachedReply(engine.cache, s.name, h, now, tx.webSocket.readyState == OPEN)
      && (Queues(engine.cache, s.name, h, now) ==>
            && s.queuedTransactions == old(s.queuedTransactions) + [tx]
            && s.queuable.queue.State() == QueueSpec.Enqueue(old(s.queuable.queue.State()), Queueable.Call.Task(tx)))
      && (!Queues(engine.cache, s.name, h, now) ==>
            && s.queuedTransactions == old(s.queuedTransactions)
            && s.queuable.queue.State() == old(s.queuable.queue.State()))
      && o.queuedTransactions == old(o.queuedTransactions) && o.queuable.queue.State() == old(o.queuable.queue.State())
    }

    /** A search query with string fields: store the URL, pick the provider, queue or answer. */
    method Dispatch(tx: Transaction, url: string, name: string, md5Remote: string -> Option<string>, now: int)
      requires Valid()
      modifies tx.webSocket`outbox, tx.data`imageURL, tx.data`imageMD5, tx.data`source
      modifies ali`queuedTransactions, ali.queuable.queue, taobao`queuedTransactions, taobao.queuable.queue
      ensures Valid()
      ensures Dispatched(tx, url, name, md5Remote, now)
    {
      tx.data.imageURL := Some(url);
      var p := ProviderNamed(name);
      if p.None? {
        return;
      }
      Submit(tx, SourceFor(p.value), SourceFor(if p.value == Ali then Taobao else Ali), md5Remote, now);
    }

    /** A search for a known provider `s`: record it, send the position, then `enqueue`. */
    method Submit(tx: Transaction, s: Source, o: Source, md5Remote: string -> Option<string>, now: int)
      requires s.Valid() && s.engine == engine && tx.data.imageURL.Some?
      requires s != o && s.queuable.queue != o.queuable.queue
      modifies tx.webSocket`outbox, tx.data`imageMD5, tx.data`source
      modifies s`queuedTransactions, s.queuable.queue
      ensures s.Valid()
      ensures Submitted(tx, s, o, md5Remote(old(tx.data.imageURL).value), now)
    {
      ghost var h := md5Remote(tx.data.imageURL.value);
      tx.data.source := Some(s.name);
      tx.Send(StatusMsg(Position(|s.queuable.queue.items|)));
      label Sent:
      var _ := s.Enqueue(tx, md5Remote, now);
    }

    /**
     * One run of the 30-second sweep, over the clients in order: a client
     * still marked alive is marked dead and pinged; the first client found
     * dead is terminated and the sweep stops there, so later clients are not
     * looked at. It returns the terminated client, if any.
     */
    method Sweep() returns (terminated: Option<Connection>)
      requires Distinct(clients)
      modifies clients
      ensures var k := FirstDead(old(Flags(clients)));
        && (k < |clients| ==> terminated == Some(clients[k]) && clients[k].readyState == CLOSED)
        && (k == |clients| ==> terminated.None?)
        && (forall i :: 0 <= i < k ==> Pinged(clients[i]))
        && (forall i :: k <= i < |clients| ==>
              && clients[i].isAlive == old(clients[i].isAlive)
              && clients[i].outbox == old(clients[i].outbox)
              && clients[i].remoteAddress == old(clients[i].remoteAddress))
        && (forall i :: k < i < |clients| ==> clients[i].readyState == old(clients[i].readyState))
    {
      ghost var k := FirstDead(Flags(clients));
      var i := 0;
      while i < |clients|
        invariant 0 <= i <= k
        invariant forall j :: 0 <= j < i ==> Pinged(clients[j])
        invariant forall j :: i <= j < |clients| ==> unchanged(clients[j])
      {
        var ws := clients[i];
        if !ws.isAlive {
          ws.Terminate();
          return Some(ws);
        }
        ws.isAlive := false;
        ws.Send(Ping);
        i := i + 1;
      }
      return None;
    }

    /**
     * The sweep interval firing twice with no message handled in between: a
     * first sweep that terminates nobody leaves every client marked dead, so
     * the second one terminates the first client, unless there is none.
     */
    method SweepTwice() returns (first: Option<Connection>, second: Option<Connection>)
      requires Distinct(clients)
      modifies clients
      ensures first.None? && |clients| >= 1 ==> second == Some(clients[0]) && clients[0].readyState == CLOSED
      ensures first.None? && |clients| >= 1 ==> forall i :: 1 <= i < |clients| ==> !clients[i].isAlive
    {
      first := Sweep();
      second := Sweep();
    }

    /** What the sweep does to a client it finds alive: marked dead, pinged, not closed. */
    twostate predicate Pinged(c: Connection)
      reads c
    {
      && !c.isAlive
      && c.outbox == old(c.outbox) + [Ping]
      && c.readyState == old(c.readyState)
      && c.remoteAddress == old(c.remoteAddress)
    }

    /**
     * The `close` event of a socket: it is closed, and the WebSocket server
     * (not the handler, which only logs) stops tracking it.
     */
    method Disconnect(ws: Connection)
      requires Valid()
      modifies this`clients, ws`readyState
      ensures Valid()
      ensures ws.readyState == CLOSED
      ensures clients == Without(old(clients), ws)
      ensures ws in old(clients) ==> |clients| == |old(clients)| - 1
    {
      WithoutDistinct(clients, ws);
      ws.readyState := CLOSED;
      clients := Without(clients, ws);
    }
  }
}

=== FILE: source.dfy ===
/**
 * `Source`: a provider. It owns a `Queuable` (and so one task queue), a
 * loaded flag set by the retrying `load`, and the list of transactions it
 * has queued. `enqueue` answers from the cache when it can and queues the
 * transaction otherwise; `task`, run by the queue, looks at the cache again,
 * fetches, writes the cache, replies and tells every queued transaction its
 * position.
 */
module Sources {
  import opened Js
  import opened WebSocket
  import opened Store
  import opened QueueSpec
  import opened TaskQueue
  import opened Queueable
  import opened Transactions
  import Ali1688

  /** Delay between two attempts of `load`, in milliseconds. */
  const RETRY_DELAY_MS: int := 10000

  /**
   * What the provider-specific `run_` works from: for either provider, how
   * far its page automation got and the temporary file name; for 1688 the
   * currency conversion (its products are read from the offer cards), for
   * Taobao the products it reads from the result images. The two providers
   * go through the same download and upload steps, so both use
   * `Ali1688.PageOutcome`; for Taobao only how far the steps got matters,
   * and the offer cards of `Listed` are ignored.
   */
  datatype Fetch =
    | Page1688(page: Ali1688.PageOutcome, fileId: string, convert: Option<string> -> Option<string>)
    | TaobaoPage(page: Ali1688.PageOutcome, fileId: string, images: seq<Product>)

  /**
   * What `run_` gives: it throws exactly after a download error (the
   * `finally` unlinks a file `download` already deleted), and it gives
   * products exactly when the automation read a result list.
   */
  function FetchResult(f: Fetch): (r: Completion<Option<seq<Product>>>)
    ensures r.Thrown? <==> f.page.DownloadErrored?
    ensures r.Normal? ==> (r.value.Some? <==> f.page.Listed?)
    ensures f.TaobaoPage? && r.Normal? && r.value.Some? ==> r.value.value == f.images
  {
    match f
    case Page1688(page, _, convert) => Ali1688.RunResult(page, convert)
    case TaobaoPage(page, _, images) =>
      if page.DownloadErrored? then Thrown
      else if page.Listed? then Normal(Some(images))
      else Normal(None)
  }

  /**
   * What `run_` sends to the requester: "Downloading", then "Uploading"
   * once the download succeeded, and for 1688 "Found N products" after a
   * list was read. It sends status messages only.
   */
  function FetchStatuses(f: Fetch): (fs: seq<Frame>)
    ensures |fs| >= 1 && fs[0] == Json(StatusMsg(Downloading))
  {
    match f
    case Page1688(page, fileId, _) => Ali1688.RunStatuses(page, fileId)
    case TaobaoPage(page, fileId, _) => Ali1688.UploadStatuses(page, fileId)
  }

  /** What `md5Remote(data.imageURL)` gives: None when it throws (no URL, a failed request). */
  function Fingerprint(imageURL: Option<string>, md5Remote: string -> Option<string>): Option<string>
  {
    if imageURL.Some? then md5Remote(imageURL.value) else None
  }

  /** `enqueue` queues the transaction when the hash was computed and no unexpired entry (`expireDate >= now`) matches it. */
  predicate Queues(cache: seq<CacheEntry>, name: string, h: Option<string>, now: int)
  {
    h.Some? && FindOne(cache, name, h, now, NotBefore).None?
  }

  /** What `enqueue` sends: the cached products, only on a hit and only to an open connection. */
  function CachedReply(cache: seq<CacheEntry>, name: string, h: Option<string>, now: int, open: bool): seq<Frame>
  {
    if h.Some? && open then
      match FindOne(cache, name, h, now, NotBefore)
      case Some(e) => [Json(SearchMsg(e.products))]
      case None => []
    else []
  }

  /** A hit is answered and not queued; a queued transaction gets no reply from `enqueue`. */
  lemma QueuedOrAnswered(cache: seq<CacheEntry>, name: string, h: Option<string>, now: int, open: bool)
    ensures Queues(cache, name, h, now) ==> CachedReply(cache, name, h, now, open) == []
    ensures h.Some? && !Queues(cache, name, h, now) && open ==>
      CachedReply(cache, name, h, now, open) == [Json(SearchMsg(FindOne(cache, name, h, now, NotBefore).value.products))]
  {
  }

  /**
   * After `task` wrote a non-empty result at `doneAt`, an `enqueue` for the
   * same provider and hash up to five hours later is answered from the
   * cache instead of being queued.
   */
  lemma CachedResultServesLaterEnqueues(cache: seq<CacheEntry>, name: string, md5: string, ps: seq<Product>, doneAt: int, now: int)
    requires |ps| >= 1 && now <= doneAt + CACHE_TTL_MS
    ensures !Queues(cache + CacheWrites(name, Some(md5), Fetched(ps), doneAt), name, Some(md5), now)
  {
    WrittenEntryIsFound(cache, name, Some(md5), ps, doneAt, now);
  }

  /**
   * Which way `task` went: a task-time cache hit, a non-null fetch result,
   * a null one, or `run` throwing (caught by `task`, which then stops).
   */
  datatype TaskPath = CachedAtTask | Fetched(products: seq<Product>) | Failed | RunThrew

  /** `run` gives null while not loaded, else the outcome of `run_`. */
  function RunResult(loaded: bool, f: Fetch): Completion<Option<seq<Product>>>
  {
    if loaded then FetchResult(f) else Normal(None)
  }

  /** The way `task` goes, given the task-time cache lookup and the result of `run`. */
  function PathOf(hit: Option<CacheEntry>, loaded: bool, f: Fetch): TaskPath
  {
    if hit.Some? then CachedAtTask else PathAfterRun(RunResult(loaded, f))
  }

  /** The way `task` goes after a task-time miss, given what `run` gave or threw. */
  function PathAfterRun(r: Completion<Option<seq<Product>>>): TaskPath
  {
    match r
    case Thrown => RunThrew
    case Normal(Some(ps)) => Fetched(ps)
    case Normal(None) => Failed
  }

  /**
   * The cache writes of `task`: exactly one entry, expiring five hours after
   * `date`, when the fetch gave at least one product; none otherwise (an
   * empty list included).
   */
  function CacheWrites(name: string, md5: Option<string>, path: TaskPath, date: int): (w: seq<CacheEntry>)
    ensures |w| <= 1
    ensures |w| == 1 <==> path.Fetched? && |path.products| >= 1
    ensures |w| == 1 ==> w[0] == NewEntry(name, md5, path.products, date) && w[0].expireDate == date + 18000000
  {
    if path.Fetched? && |path.products| >= 1 then [NewEntry(name, md5, path.products, date)] else []
  }

  /** The frames `run_` sends during `task`: none on a task-time hit or while not loaded. */
  function FetchFrames(path: TaskPath, loaded: bool, f: Fetch): seq<Frame>
  {
    if !path.CachedAtTask? && loaded then FetchStatuses(f) else []
  }

  /**
   * How `task` answers the requester: nothing on a task-time hit, the
   * products on an open connection or nothing on another, the error status
   * after a null result, nothing after `run` threw.
   */
  function Reply(path: TaskPath, open: bool): seq<Frame>
  {
    match path
    case CachedAtTask => []
    case Fetched(ps) => if open then [Json(SearchMsg(ps))] else []
    case Failed => [Json(StatusMsg(ErrorOccurred))]
    case RunThrew => []
  }

  /**
   * What `task` sends to the requester itself, before the position notices:
   * the "Retrieving" status, what `run_` sends when it is called, then the
   * search reply (only if the connection is open) or the error status.
   * A task-time cache hit sends no search reply.
   */
  function DirectFrames(path: TaskPath, loaded: bool, f: Fetch, open: bool): seq<Frame>
  {
    [Json(StatusMsg(Retrieving))] + FetchFrames(path, loaded, f) + Reply(path, open)
  }

  /**
   * The requester always hears "Retrieving" first; a task-time hit sends
   * nothing else, a null result ends with the error status, a fetch on an
   * open connection ends with the search reply, and after `run` threw only
   * what `run_` sent follows.
   */
  lemma DirectFramesShape(path: TaskPath, loaded: bool, f: Fetch, open: bool)
    ensures var fs := DirectFrames(path, loaded, f, open);
      && |fs| >= 1 && fs[0] == Json(StatusMsg(Retrieving))
      && (path.CachedAtTask? ==> fs == [Json(StatusMsg(Retrieving))])
      && (path.Failed? ==> fs[|fs| - 1] == Json(StatusMsg(ErrorOccurred)))
      && (path.Fetched? && open ==> fs[|fs| - 1] == Json(SearchMsg(path.products)))
      && (path.RunThrew? ==> fs == [Json(StatusMsg(Retrieving))] + FetchFrames(path, loaded, f))
      && (!path.Fetched? ==> (Json(StatusMsg(ErrorOccurred)) in fs <==> path.Failed?))
  {
    FetchSendsProgressOnly(f);
  }

  /** `run_` sends status messages only, and never the error status: only `task` does. */
  lemma FetchSendsProgressOnly(f: Fetch)
    ensures forall i :: 0 <= i < |FetchStatuses(f)| ==>
      FetchStatuses(f)[i].Json? && FetchStatuses(f)[i].message.StatusMsg? && FetchStatuses(f)[i] != Json(StatusMsg(ErrorOccurred))
  {
    var fs := FetchStatuses(f);
    forall i | 0 <= i < |fs| ensures fs[i].Json? && fs[i].message.StatusMsg? && fs[i] != Json(StatusMsg(ErrorOccurred)) {
      match f
      case Page1688(page, fileId, _) =>
        assert fs == Ali1688.RunStatuses(page, fileId);
      case TaobaoPage(page, fileId, _) =>
        assert fs == Ali1688.UploadStatuses(page, fileId);
    }
  }

  /** A search reply reaches the requester only after a fetch, only on an open connection, and with the fetched products. */
  lemma SearchReplyOnlyAfterFetch(path: TaskPath, loaded: bool, f: Fetch, open: bool, ps: seq<Product>)
    requires Json(SearchMsg(ps)) in DirectFrames(path, loaded, f, open)
    ensures path.Fetched? && open && ps == path.products
  {
    FetchSendsProgressOnly(f);
  }

  /** The position notices `task` sends to connection `c` over the transactions `queued`: only after a fetch. */
  function Notices(path: TaskPath, position: int, queued: seq<Transaction>, c: Connection): seq<Frame>
  {
    if path.Fetched? then Repeat(Json(StatusMsg(Position(position))), Occurrences(queued, c)) else []
  }

  /** The index of the first successful attempt, or the number of attempts when none succeeded. */
  function FirstSuccess(attempts: seq<bool>): (k: nat)
    ensures k <= |attempts|
    ensures forall j :: 0 <= j < k ==> !attempts[j]
    ensures k < |attempts| ==> attempts[k]
  {
    if attempts == [] || attempts[0] then 0 else 1 + FirstSuccess(attempts[1..])
  }

  class Source {
    const name: string
    /** Holds the cache collection shared by every provider. */
    const engine: Engine
    /** The `Queuable` part of the provider, with its queue. */
    const queuable: Queuable<Transaction, ()>
    var loaded: bool
    /** Every transaction ever queued here; never pruned. */
    var queuedTransactions: seq<Transaction>

    /** The queue is consistent, and every waiting or running task is for a transaction of the list. */
    ghost predicate Valid()
      reads this, queuable, queuable.queue
    {
      && queuable.queue.Valid()
      && (forall i :: 0 <= i < |queuable.queue.items| ==> queuable.queue.items[i].action.args in queuedTransactions)
      && (queuable.queue.running.Some? ==> queuable.queue.running.value.action.args in queuedTransactions)
    }

    constructor (name: string, engine: Engine)
      ensures this.name == name && this.engine == engine
      ensures !loaded && queuedTransactions == []
      ensures fresh(queuable) && fresh(queuable.queue)
      ensures Valid() && queuable.queue.State() == Initial() && queuable.queue.pushed == []
    {
      this.name := name;
      this.engine := engine;
      queuable := new Queuable();
      loaded := false;
      queuedTransactions := [];
    }

    /**
     * `enqueue(transaction)`: hash the image and store the hash in the data
     * bag, then look the hash up with `expireDate >= now`. On a hit, send the
     * cached products if the connection is open and queue nothing; on a miss,
     * record the transaction and queue exactly one task for it, returning
     * the queue's promise. A failed hash is logged and swallowed.
     */
    method Enqueue(tx: Transaction, md5Remote: string -> Option<string>, now: int) returns (promise: Option<nat>)
      requires Valid()
      modifies tx.data`imageMD5, tx.webSocket`outbox, this`queuedTransactions, queuable.queue
      ensures Valid()
      ensures var h := Fingerprint(old(tx.data.imageURL), md5Remote);
        && tx.data.imageMD5 == (if h.Some? then h else old(tx.data.imageMD5))
        && tx.webSocket.outbox == old(tx.webSocket.outbox) + CachedReply(engine.cache, name, h, now, tx.webSocket.readyState == OPEN)
        && (Queues(engine.cache, name, h, now) ==>
              && promise == Some(old(queuable.queue.submitted))
              && queuedTransactions == old(queuedTransactions) + [tx]
              && queuable.queue.State() == QueueSpec.Enqueue(old(queuable.queue.State()), Call.Task(tx)))
        && (!Queues(engine.cache, name, h, now) ==>
              && promise.None?
              && queuedTransactions == old(queuedTransactions)
              && queuable.queue.State() == old(queuable.queue.State()))
    {
      var h := Fingerprint(tx.data.imageURL, md5Remote);
      if h.None? {
        return None;
      }
      tx.data.imageMD5 := h;
      var hit := FindOne(engine.cache, name, h, now, NotBefore);
      if hit.Some? {
        if tx.webSocket.readyState == OPEN {
          tx.Send(SearchMsg(hit.value.products));
        }
        return None;
      }
      queuedTransactions := queuedTransactions + [tx];
      var p := queuable.Enqueue(tx);
      promise := Some(p);
    }

    /**
     * `load()`: each attempt either succeeds, setting `loaded`, or fails and
     * is retried after 10 s, with no bound on the number of attempts.
     * `attempts` gives the outcome of each attempt in turn; when none of them
     * succeeds, `load` is still retrying. Nothing ever clears `loaded`.
     */
    method Load(attempts: seq<bool>) returns (done: bool, waitedMs: int)
      modifies this`loaded
      ensures done <==> FirstSuccess(attempts) < |attempts|
      ensures loaded <==> old(loaded) || done
      ensures waitedMs == RETRY_DELAY_MS * FirstSuccess(attempts)
    {
      var i := 0;
      waitedMs := 0;
      while i < |attempts| && !attempts[i]
        invariant 0 <= i <= |attempts|
        invariant forall j :: 0 <= j < i ==> !attempts[j]
        invariant waitedMs == RETRY_DELAY_MS * i
      {
        waitedMs := waitedMs + RETRY_DELAY_MS;
        i := i + 1;
      }
      done := i < |attempts|;
      if done {
        loaded := true;
      }
    }

    /** `run(transaction)`: null without calling `run_` while not loaded, else what `run_` gives or throws. */
    method Run(tx: Transaction, f: Fetch) returns (r: Completion<Option<seq<Product>>>)
      modifies tx.webSocket`outbox
      ensures r == RunResult(loaded, f)
      ensures tx.webSocket.outbox == old(tx.webSocket.outbox) + (if loaded then FetchStatuses(f) else [])
    {
      if !loaded {
        return Normal(None);
      }
      match f
      case Page1688(page, fileId, convert) =>
        r := Ali1688.Run(tx, page, fileId, convert);
      case TaobaoPage(page, fileId, images) =>
        r := RunTaobao(tx, page, fileId, images);
    }

    /**
     * The Taobao provider's `run_`: the same download and upload steps and
     * statuses as 1688's `uploadImage`, with the same throw from the
     * `finally` after a download error; the products are the ones read from
     * the result images.
     */
    method RunTaobao(tx: Transaction, page: Ali1688.PageOutcome, fileId: string, images: seq<Product>)
      returns (r: Completion<Option<seq<Product>>>)
      modifies tx.webSocket`outbox
      ensures r == FetchResult(TaobaoPage(page, fileId, images))
      ensures tx.webSocket.outbox == old(tx.webSocket.outbox) + Ali1688.UploadStatuses(page, fileId)
    {
      tx.Send(StatusMsg(Downloading));
      if page.DownloadErrored? {
        return Thrown;
      }
      if page.DownloadRefused? || page.PageFailed? {
        return Normal(None);
      }
      tx.Send(StatusMsg(Uploading("temp/" + fileId)));
      r := if page.Listed? then Normal(Some(images)) else Normal(None);
    }

    /**
     * The effect of `task(tx)` when it went the way `path`, finishing its
     * fetch at `doneAt`, with `queued` the transactions queued here and
     * `position` the value of `queue.items.length - 1` when the notices go
     * out: the cache and the frames written, as a relation between the state
     * before and after.
     */
    twostate predicate TaskDone(tx: Transaction, queued: seq<Transaction>, position: int, path: TaskPath, doneAt: int, f: Fetch)
      reads this, engine, tx.data, tx.webSocket, Sockets(queued)
    {
      && engine.cache == old(engine.cache) + CacheWrites(name, old(tx.data.imageMD5), path, doneAt)
      && tx.webSocket.outbox == old(tx.webSocket.outbox) + [Json(StatusMsg(Retrieving))]
           + FetchFrames(path, loaded, f) + Reply(path, tx.webSocket.readyState == OPEN)
           + Notices(path, position, queued, tx.webSocket)
      && (forall i :: 0 <= i < |queued| && queued[i].webSocket != tx.webSocket ==>
            queued[i].webSocket.outbox == old(queued[i].webSocket.outbox) + Notices(path, position, queued, queued[i].webSocket))
    }

    /**
     * The position notice of `task`: every queued transaction is sent
     * `position`, so each connection gets one copy per queued transaction
     * bound to it; the requester's connection gets none when it has no queued
     * transaction.
     */
    method NotifyPositions(tx: Transaction, position: int)
      modifies Sockets(queuedTransactions)`outbox
      ensures tx.webSocket.outbox == old(tx.webSocket.outbox)
                + Repeat(Json(StatusMsg(Position(position))), Occurrences(queuedTransactions, tx.webSocket))
      ensures forall i :: 0 <= i < |queuedTransactions| ==>
                queuedTransactions[i].webSocket.outbox == old(queuedTransactions[i].webSocket.outbox)
                  + Repeat(Json(StatusMsg(Position(position))), Occurrences(queuedTransactions, queuedTransactions[i].webSocket))
    {
      SendToEach(queuedTransactions, StatusMsg(Position(position)));
      if tx.webSocket !in Sockets(queuedTransactions) {
        OccurrencesOutside(queuedTransactions, tx.webSocket);
      }
    }

    /**
     * `task(tx)`: never throws. Every transaction ever queued here, the
     * requester included, is told the position `queue.items.length - 1`
     * after every non-null fetch result.
     */
    method Task(tx: Transaction, now: int, doneAt: int, f: Fetch) returns (ghost path: TaskPath)
      modifies engine`cache, tx.webSocket`outbox, Sockets(queuedTransactions)`outbox
      ensures path == PathOf(FindOne(old(engine.cache), name, tx.data.imageMD5, now, After), loaded, f)
      ensures TaskDone(tx, queuedTransactions, |queuable.queue.items| - 1, path, doneAt, f)
    {
      var hit := FindOne(engine.cache, name, tx.data.imageMD5, now, After);
      tx.Send(StatusMsg(Retrieving));
      if hit.Some? {
        path := CachedAtTask;
      } else {
        path := FetchAndReply(tx, doneAt, f);
      }
    }

    /**
     * `task` after a task-time cache miss: `run`, then nothing more when it
     * threw, the error status after a null result, or else the cache write (only for a non-empty list), the
     * search reply (only on an open connection) and the position notices.
     */
    method FetchAndReply(tx: Transaction, doneAt: int, f: Fetch) returns (ghost path: TaskPath)
      modifies engine`cache, tx.webSocket`outbox, Sockets(queuedTransactions)`outbox
      ensures path == PathOf(None, loaded, f)
      ensures engine.cache == old(engine.cache) + CacheWrites(name, tx.data.imageMD5, path, doneAt)
      ensures tx.webSocket.outbox == old(tx.webSocket.outbox)
                + FetchFrames(path, loaded, f) + Reply(path, tx.webSocket.readyState == OPEN)
                + Notices(path, |queuable.queue.items| - 1, queuedTransactions, tx.webSocket)
      ensures forall i :: 0 <= i < |queuedTransactions| && queuedTransactions[i].webSocket != tx.webSocket ==>
                queuedTransactions[i].webSocket.outbox == old(queuedTransactions[i].webSocket.outbox)
                  + Notices(path, |queuable.queue.items| - 1, queuedTransactions, queuedTransactions[i].webSocket)
    {
      path := PathOf(None, loaded, f);
      var products := Run(tx, f);
      Conclude(tx, products, doneAt);
    }

    /**
     * `task` once `run` has given or thrown `r`: nothing more after a throw,
     * the error status after null, otherwise `Deliver`.
     */
    method Conclude(tx: Transaction, r: Completion<Option<seq<Product>>>, doneAt: int)
      modifies engine`cache, tx.webSocket`outbox, Sockets(queuedTransactions)`outbox
      ensures engine.cache == old(engine.cache) + CacheWrites(name, tx.data.imageMD5, PathAfterRun(r), doneAt)
      ensures tx.webSocket.outbox == old(tx.webSocket.outbox)
                + Reply(PathAfterRun(r), tx.webSocket.readyState == OPEN)
                + Notices(PathAfterRun(r), |queuable.queue.items| - 1, queuedTransactions, tx.webSocket)
      ensures forall i :: 0 <= i < |queuedTransactions| && queuedTransactions[i].webSocket != tx.webSocket ==>
                queuedTransactions[i].webSocket.outbox == old(queuedTransactions[i].webSocket.outbox)
                  + Notices(PathAfterRun(r), |queuable.queue.items| - 1, queuedTransactions, queuedTransactions[i].webSocket)
    {
      if r.Thrown? {
        return;
      }
      if r.value.None? {
        tx.Send(StatusMsg(ErrorOccurred));
        return;
      }
      Deliver(tx, r.value.value, doneAt);
    }

    /**
     * The end of `task` after a non-null fetch result `ps`: the cache write
     * (only for a non-empty list), the search reply (only on an open
     * connection), then the position notices.
     */
    method Deliver(tx: Transaction, ps: seq<Product>, doneAt: int)
      modifies engine`cache, tx.webSocket`outbox, Sockets(queuedTransactions)`outbox
      ensures engine.cache == old(engine.cache) + (if |ps| >= 1 then [NewEntry(name, tx.data.imageMD5, ps, doneAt)] else [])
      ensures tx.webSocket.outbox == old(tx.webSocket.outbox)
                + (if tx.webSocket.readyState == OPEN then [Json(SearchMsg(ps))] else [])
                + Repeat(Json(StatusMsg(Position(|queuable.queue.items| - 1))), Occurrences(queuedTransactions, tx.webSocket))
      ensures forall i :: 0 <= i < |queuedTransactions| && queuedTransactions[i].webSocket != tx.webSocket ==>
                queuedTransactions[i].webSocket.outbox == old(queuedTransactions[i].webSocket.outbox)
                  + Repeat(Json(StatusMsg(Position(|queuable.queue.items| - 1))), Occurrences(queuedTransactions, queuedTransactions[i].webSocket))
    {
      WriteCache(tx.data.imageMD5, ps, doneAt);
      Answer(tx, ps);
      label Notify:
      NotifyPositions(tx, |queuable.queue.items| - 1);
      forall i | 0 <= i < |queuedTransactions| && queuedTransactions[i].webSocket != tx.webSocket
        ensures old@Notify(queuedTransactions[i].webSocket.outbox) == old(queuedTransactions[i].webSocket.outbox)
      {
      }
    }

    /** The cache write of `task`: one entry for a non-empty result, none for an empty one. */
    method WriteCache(md5: Option<string>, ps: seq<Product>, doneAt: int)
      modifies engine`cache
      ensures engine.cache == old(engine.cache) + (if |ps| >= 1 then [NewEntry(name, md5, ps, doneAt)] else [])
    {
      if |ps| >= 1 {
        engine.InsertOne(NewEntry(name, md5, ps, doneAt));
      }
    }

    /** The search reply of `task`: sent only when the connection is open. */
    method Answer(tx: Transaction, ps: seq<Product>)
      modifies tx.webSocket`outbox
      ensures tx.webSocket.outbox == old(tx.webSocket.outbox) + (if tx.webSocket.readyState == OPEN then [Json(SearchMsg(ps))] else [])
    {
      if tx.webSocket.readyState == OPEN {
        tx.Send(SearchMsg(ps));
      }
    }

    /**
     * The running task runs to its end and settles: the task of the
     * transaction at the head of the run, then the queue's own settling,
     * which resolves that item's promise and starts the next one.
     */
    method RunNext(now: int, doneAt: int, f: Fetch) returns (tx: Transaction, ghost path: TaskPath)
      requires Valid() && queuable.queue.pending
      modifies engine`cache, Sockets(queuedTransactions)`outbox, queuable.queue
      ensures Valid()
      ensures old(queuable.queue.running) == Some(Item(old(queuable.queue.running).value.ticket, Call.Task(tx)))
      ensures path == PathOf(FindOne(old(engine.cache), name, tx.data.imageMD5, now, After), loaded, f)
      ensures TaskDone(tx, queuedTransactions, |old(queuable.queue.items)| - 1, path, doneAt, f)
      ensures queuable.queue.State() == QueueSpec.Complete(old(queuable.queue.State()), Fulfilled(()))
      ensures queuable.queue.pushed == old(queuable.queue.pushed)
    {
      var current := queuable.queue.running.value;
      tx := current.action.args;
      assert tx.webSocket in Sockets(queuedTransactions) by {
        var k :| 0 <= k < |queuedTransactions| && queuedTransactions[k] == tx;
      }
      path := Task(tx, now, doneAt, f);
      label Ran:
      Settle();
      assert unchanged@Ran(this, engine, tx.data, tx.webSocket) && unchanged@Ran(Sockets(queuedTransactions));
    }

    /**
     * The running task has returned: its promise resolves (a task never
     * throws) and the queue starts the next waiting item, which is again a
     * task for a queued transaction.
     */
    method Settle()
      requires Valid() && queuable.queue.pending
      modifies queuable.queue
      ensures Valid()
      ensures queuable.queue.State() == QueueSpec.Complete(old(queuable.queue.State()), Fulfilled(()))
      ensures queuable.queue.pushed == old(queuable.queue.pushed)
    {
      queuable.queue.Complete(Fulfilled(()));
    }
  }
}

=== FILE: store.dfy ===
/**
 * The "cache" collection of the database, reached through the engine, as an
 * in-memory sequence of entries in insertion order. Time is an integer
 * number of milliseconds. Entries are only ever appended; a lookup filters
 * by kind, provider name, image hash and expiry, and returns the first
 * match in natural (insertion) order.
 */
module Store {
  import opened Js
  import opened WebSocket

  /** Lifetime of a cache entry: five hours, in milliseconds. */
  const CACHE_TTL_MS: int := (5 * 60) * 60000

  datatype CacheEntry = CacheEntry(
    kind: string,
    sourceName: string,
    imageMD5: Option<string>,   // an undefined hash is stored as null
    products: seq<Product>,
    date: int,
    expireDate: int)

  /** The expiry filter: `$gte: now` (at enqueue time) or `$gt: now` (at task time). */
  datatype ExpiryBound = NotBefore | After

  predicate Unexpired(e: CacheEntry, now: int, bound: ExpiryBound)
  {
    match bound
    case NotBefore => e.expireDate >= now
    case After => e.expireDate > now
  }

  /** The filter `{ type: "source", sourceName, imageMD5, expireDate: bound }`. */
  predicate Matches(e: CacheEntry, name: string, md5: Option<string>, now: int, bound: ExpiryBound)
  {
    e.kind == "source" && e.sourceName == name && e.imageMD5 == md5 && Unexpired(e, now, bound)
  }

  /** `findOne(filter)`: the first matching entry, or null when none matches. */
  function FindOne(entries: seq<CacheEntry>, name: string, md5: Option<string>, now: int, bound: ExpiryBound)
    : (r: Option<CacheEntry>)
    ensures r.None? <==> forall i :: 0 <= i < |entries| ==> !Matches(entries[i], name, md5, now, bound)
    ensures r.Some? ==> exists i :: 0 <= i < |entries| && entries[i] == r.value
                         && Matches(r.value, name, md5, now, bound)
                         && forall j :: 0 <= j < i ==> !Matches(entries[j], name, md5, now, bound)
  {
    if entries == [] then None
    else if Matches(entries[0], name, md5, now, bound) then Some(entries[0])
    else
      var r := FindOne(entries[1..], name, md5, now, bound);
      assert r.Some? ==> exists i :: 1 <= i < |entries| && entries[i] == r.value
                           && forall j :: 1 <= j < i ==> !Matches(entries[j], name, md5, now, bound);
      r
  }

  /** The entry a provider writes after a successful search finished at `date`. */
  function NewEntry(name: string, md5: Option<string>, products: seq<Product>, date: int): (e: CacheEntry)
    ensures e.kind == "source" && e.sourceName == name && e.imageMD5 == md5 && e.products == products
    ensures e.date == date && e.expireDate == date + CACHE_TTL_MS
    ensures CACHE_TTL_MS == 18000000
  {
    CacheEntry("source", name, md5, products, date, date + CACHE_TTL_MS)
  }

  /**
   * An entry written at `date` is found by the enqueue-time lookup for the
   * same provider and hash at every moment up to and including
   * `date + 5 h`, whatever else the collection holds.
   */
  lemma WrittenEntryIsFound(entries: seq<CacheEntry>, name: string, md5: Option<string>,
                                               products: seq<Product>, date: int, now: int)
    requires now <= date + CACHE_TTL_MS
    ensures FindOne(entries + [NewEntry(name, md5, products, date)], name, md5, now, NotBefore).Some?
  {
    var all := entries + [NewEntry(name, md5, products, date)];
    assert Matches(all[|entries|], name, md5, now, NotBefore);
  }

  /**
   * The two lookups disagree exactly on an entry that expires at the very
   * moment of the lookup: enqueue (`$gte`) sees it, the task (`$gt`) does not.
   */
  lemma BoundsDisagreeOnlyAtExpiry(e: CacheEntry, name: string, md5: Option<string>, now: int)
    ensures Matches(e, name, md5, now, NotBefore) && !Matches(e, name, md5, now, After)
            <==> e.kind == "source" && e.sourceName == name && e.imageMD5 == md5 && e.expireDate == now
    ensures Matches(e, name, md5, now, After) ==> Matches(e, name, md5, now, NotBefore)
  {
  }

  /** The database handle shared by all providers, with its "cache" collection. */
  class Engine {
    var cache: seq<CacheEntry>

    constructor ()
      ensures cache == []
    {
      cache := [];
    }

    /** `insertOne(entry)`: appended, never merged with an existing entry. */
    method InsertOne(e: CacheEntry)
      modifies this`cache
      ensures cache == old(cache) + [e]
    {
      cache := cache + [e];
    }
  }
}

=== FILE: transaction.dfy ===
/**
 * `Transaction`: the per-connection context. It binds one connection to the
 * engine and carries a mutable data bag that the server and the providers
 * read and write (`imageURL`, `imageMD5`, `source`).
 */
module Transactions {
  import opened Js
  import opened WebSocket
  import opened Store

  /** The `data` object; every field starts out undefined. */
  class Bag {
    var imageURL: Option<string>
    var imageMD5: Option<string>
    /** The provider chosen for the last search, by name. */
    var source: Option<string>

    constructor ()
      ensures imageURL == None && imageMD5 == None && source == None
    {
      imageURL, imageMD5, source := None, None, None;
    }
  }

  class Transaction {
    /** Fixed at construction; only read afterwards. */
    const engine: Engine
    const webSocket: Connection
    /** The same bag on every access, so what one component writes the others see. */
    const data: Bag

    constructor (engine: Engine, webSocket: Connection)
      ensures this.engine == engine && this.webSocket == webSocket
      ensures fresh(data) && data.imageURL == None && data.imageMD5 == None && data.source == None
    {
      this.engine := engine;
      this.webSocket := webSocket;
      data := new Bag();
    }

    /**
     * Writes exactly one JSON message to this transaction's own connection.
     * It looks at no `readyState`: the callers that care check it first.
     */
    method Send(m: Message)
      modifies webSocket`outbox
      ensures webSocket.outbox == old(webSocket.outbox) + [Json(m)]
    {
      webSocket.Send(Json(m));
    }
  }

  /** The connections of a list of transactions. */
  function Sockets(ts: seq<Transaction>): (r: set<Connection>)
  {
    set t | t in ts :: t.webSocket
  }

  /** How many of the transactions `ts` write to connection `c`. */
  function Occurrences(ts: seq<Transaction>, c: Connection): (n: nat)
    ensures n <= |ts|
  {
    if ts == [] then 0
    else Occurrences(ts[..|ts| - 1], c) + (if ts[|ts| - 1].webSocket == c then 1 else 0)
  }

  /** A connection no transaction of `ts` is bound to is counted zero times; no count exceeds `|ts|`. */
  lemma {:induction false} OccurrencesOutside(ts: seq<Transaction>, c: Connection)
    ensures Occurrences(ts, c) <= |ts|
    ensures c !in Sockets(ts) ==> Occurrences(ts, c) == 0
  {
    if ts != [] {
      var init := ts[..|ts| - 1];
      OccurrencesOutside(init, c);
      assert forall t :: t in init ==> t in ts;
    }
  }

  lemma OccurrencesSnoc(ts: seq<Transaction>, i: nat, c: Connection)
    requires i < |ts|
    ensures Occurrences(ts[..i + 1], c) == Occurrences(ts[..i], c) + (if ts[i].webSocket == c then 1 else 0)
  {
    assert ts[..i + 1][..i] == ts[..i];
  }

  /** One more transaction of `ts` sent `m`: its connection, and only that one, gets one more copy. */
  lemma SendStep(start: seq<Frame>, before: seq<Frame>, after: seq<Frame>, ts: seq<Transaction>, i: nat, c: Connection, m: Message)
    requires i < |ts|
    requires before == start + Repeat(Json(m), Occurrences(ts[..i], c))
    requires after == before + (if ts[i].webSocket == c then [Json(m)] else [])
    ensures after == start + Repeat(Json(m), Occurrences(ts[..i + 1], c))
  {
    OccurrencesSnoc(ts, i, c);
    if ts[i].webSocket == c {
      assert after == start + (Repeat(Json(m), Occurrences(ts[..i], c)) + [Json(m)]);
    }
  }

  /** `n` copies of frame `f`. */
  function Repeat(f: Frame, n: nat): (r: seq<Frame>)
  {
    if n == 0 then [] else Repeat(f, n - 1) + [f]
  }

  /**
   * Sends `m` through every transaction of `ts` in order: each connection
   * receives one copy per transaction of `ts` bound to it, and nothing else.
   */
  method SendToEach(ts: seq<Transaction>, m: Message)
    modifies Sockets(ts)`outbox
    ensures forall c :: c in Sockets(ts) ==> c.outbox == old(c.outbox) + Repeat(Json(m), Occurrences(ts, c))
  {
    var i := 0;
    while i < |ts|
      invariant 0 <= i <= |ts|
      invariant forall c :: c in Sockets(ts) ==> c.outbox == old(c.outbox) + Repeat(Json(m), Occurrences(ts[..i], c))
    {
      label Before:
      ts[i].Send(m);
      assert forall c :: c in Sockets(ts) && c != ts[i].webSocket ==> c.outbox == old@Before(c.outbox);
      forall c | c in Sockets(ts)
        ensures c.outbox == old(c.outbox) + Repeat(Json(m), Occurrences(ts[..i + 1], c))
      {
        SendStep(old(c.outbox), old@Before(c.outbox), c.outbox, ts, i, c, m);
      }
      i := i + 1;
    }
    assert ts[..i] == ts;
  }
}

=== FILE: websocket.dfy ===
/**
 * The duplex connection as the server sees it: the frames written to it,
 * its `readyState`, and the `isAlive` and `remoteAddress` fields the server
 * attaches to it. Outbound JSON messages are kept structured; their
 * serialisation is not modelled.
 */
module WebSocket {
  import opened Js

  /** `readyState` values of a WebSocket. */
  const CONNECTING: int := 0
  const OPEN: int := 1
  const CLOSING: int := 2
  const CLOSED: int := 3

  /** The two prices of a product; `brazilian` is absent until conversion. */
  datatype Currency = Currency(chinese: Option<string>, brazilian: Option<string>)

  /** A product as sent in a search reply and stored in the cache. */
  datatype Product = Product(name: string, src: string, url: string, currency: Currency)

  /** The texts of the status messages the providers and the server send. */
  datatype Status =
    | Retrieving                 // "Retrieving products..."
    | ErrorOccurred              // "An error occured."
    | Position(position: int)    // "Queuing request: Your position is N..."
    | Found(count: nat)          // "Found N products. Converting currency..."
    | Downloading                // "Downloading image to file..."
    | Uploading(filepath: string) // "Uploading image F to 1688 search engine..."

  /** `{ query: "status", data }` and `{ query: "search", data: products }`. */
  datatype Message = StatusMsg(status: Status) | SearchMsg(products: seq<Product>)

  /** A frame handed to the socket: the raw "ping" probe or a JSON message. */
  datatype Frame = Ping | Json(message: Message)

  class Connection {
    var remoteAddress: string
    var readyState: int
    var isAlive: bool
    /** Every frame handed to `send`, in order. */
    var outbox: seq<Frame>

    /** A socket whose upgrade has just completed. */
    constructor ()
      ensures readyState == OPEN && outbox == [] && !isAlive && remoteAddress == ""
    {
      remoteAddress := "";
      readyState := OPEN;
      isAlive := false;
      outbox := [];
    }

    /** `webSocket.send(frame)`: one frame more, nothing else changes. */
    method Send(f: Frame)
      modifies this`outbox
      ensures outbox == old(outbox) + [f]
    {
      outbox := outbox + [f];
    }

    /**
     * `webSocket.terminate()`: the ws library moves the socket to CLOSING at
     * once and to CLOSED when its `close` event follows. The model goes
     * straight to CLOSED; every test of `readyState` here is `== OPEN`, which
     * treats the two states alike.
     */
    method Terminate()
      modifies this`readyState
      ensures readyState == CLOSED
    {
      readyState := CLOSED;
    }
  }
}
